=== FILE: README.md ===
# Iframe RPC, signaling relay and query-string lookup — a Dafny model

This project models the parts of the video-call demo repository that carry
logic of their own:

- **The iframe RPC protocol** (`hf-demo/iframe-rpc.js`). It has a registry of
  named channels with one action table per channel. It has a correlator that
  tags outgoing calls with callback ids `++_callbackId` and keeps one-shot or
  keep-listening pending entries. It has the `_recv` dispatcher, which either
  resolves a pending callback (action `__CALLBACK__`) or runs a handler with
  a `reply` continuation. The `IframeChannel` facade (`call`, `on`,
  `setTarget`, `setOrigin`, construction-time registration) is modelled on
  top of it.
- **The protocol clients built on it** (`hf-demo/rtc-channel.js`,
  `hf-demo/agora/channel.js`). These are the `mute`/`unmute`/`userJoined`
  envelopes, the `config` → `startup` handshake of `getRtcService`, and
  `serializeError`. The `artc` channel's method set depends on whether the
  code runs in a frame.
- **The WebSocket signaling relay** (`webrtc-video-call/chat-server.js`). It
  covers:
  - the ordered connection list and client-id allocation;
  - username de-duplication with the global `appendToMakeUnique` counter,
    including the termination of its `while` loop;
  - the `rejectusername` notice and user-list broadcasts;
  - tag stripping of chat text;
  - unicast/broadcast routing;
  - the `close` handler.
- **`getParamByName`** (`zego-video-talk/main.js`). It reads one parameter
  from `location.search`.

Everything is pure state transitions over immutable datatypes.

- **Sending.** An operation returns the envelope `postMessage` would carry,
  or the deliveries `socket.send` would make, in order.
- **Handlers and callbacks.** JavaScript functions are opaque references
  (the type parameter `H`). Running one is recorded as an event.
- **Exceptions.** A JavaScript exception is an outcome (`Threw`,
  `RecvThrew`) carrying the state as the code had mutated it before the
  throw.
- **Clock.** `Date.now()`, which seeds the relay's ids, is the parameter of
  `ChatServer.Init`.
- **Location.** `location.search` is the parameter of
  `QueryString.GetParamByName`.

Modules:

- `Wrappers`: `Option`.
- `Decimal`: natural numbers as decimal text, with the round trip.
- `Values`: JavaScript values, truthiness and property reads.
- `IframeRpc` and `IframeRpcProperties`.
- `RtcChannel`, `AgoraChannel` and `RtcHandshake`.
- `TagStrip`.
- `ChatServer` and `ChatServerProperties`.
- `QueryString`.

Where the code's own messages suggest one behaviour and its statements do
another, the model follows the statements:

- `call` logs `ERR_IRPC_NO_CHANNEL` for an unregistered channel and
  `ERR_IRPC_NO_WINDOW` for a channel without a target window
  (hf-demo/iframe-rpc.js:75, 78), as if it meant only to report. It then
  reads `channel.target` or posts through the missing window, and so raises
  a `TypeError`. Without a target, the callback id is allocated and the
  pending entry stored before the throw (lines 85-93).
- `addChannel` (hf-demo/iframe-rpc.js:25) assigns a fresh empty object to
  the name's action table even when the name is already registered. A
  second registration under one name therefore drops the handlers
  installed before it.
- Dispatch and the relay's `close` handler throw as written. See
  "## Findings".

## Model

| member | source | states |
|---|---|---|
| Decimal.NatToString | webrtc-video-call/chat-server.js:141 | the text appended to a name is the canonical decimal form of the counter, one digit exactly for values below ten |
| Decimal.ParseNat | webrtc-video-call/chat-server.js:141 | a text reads as a number exactly when it is canonical decimal |
| Decimal.ParseNatToString | webrtc-video-call/chat-server.js:141 | the decimal text of a counter value reads back as that value |
| Decimal.NatToStringOfParse | webrtc-video-call/chat-server.js:141 | every canonical decimal text is the text of the number it denotes |
| Decimal.NatToStringInjective | webrtc-video-call/chat-server.js:141 | distinct counter values give distinct suffixes, so the candidates `origName + k` never repeat |
| IframeRpc.NewRpc | hf-demo/iframe-rpc.js:7-18 | a new RPC object has no callbacks, counter 0, no handlers, and exactly the given channel record, stored under its name, if one is passed; it satisfies the state invariant |
| IframeRpc.AddChannel | hf-demo/iframe-rpc.js:24-27 | the channel is found under its name with an empty action table; other channels, tables and callbacks are unchanged |
| IframeRpc.GetChannelByName | hf-demo/iframe-rpc.js:29-31 | a channel is returned exactly when one is registered under the name |
| IframeRpc.SetAction | hf-demo/iframe-rpc.js:39-48 | on an unknown channel nothing changes; otherwise a truthy listener installs or overwrites one entry, a falsy one deletes it, and every other entry and table is untouched |
| IframeRpc.SetActions | hf-demo/iframe-rpc.js:51-56 | on an unknown channel nothing changes; otherwise the listed names are overwritten (falsy values included) and unlisted names keep their entries |
| IframeRpc.Call | hf-demo/iframe-rpc.js:72-94 | an unregistered channel throws with nothing changed; a function callback gets id counter+1, is stored as pending with its keepListen flag and is carried in the envelope; a truthy literal id is copied, a falsy one or none leaves the field unset and allocates nothing; no target window throws after the allocation; the envelope carries channel, action and data and goes to the channel's target and origin |
| IframeRpc.PendingKey | hf-demo/iframe-rpc.js:111 | the number n and its decimal text address the same pending entry, and those are the only ids that address entry n; `undefined`, negative numbers and non-canonical texts address none |
| IframeRpc.Resolve | hf-demo/iframe-rpc.js:110-118 | a pending id runs its callback once with the reply's `error` and `data` and is removed unless it keeps listening; an unknown id changes nothing |
| IframeRpc.Dispatch | hf-demo/iframe-rpc.js:119-131 | a registered handler runs with the params and a reply continuation for the same channel and callback id; otherwise exactly one "no action" log and no handler |
| IframeRpc.Recv | hf-demo/iframe-rpc.js:107-132 | non-objects are ignored, `null` throws; a `__CALLBACK__` envelope only ever runs callbacks and any other envelope never does; at most one event; channels, tables and counter never change and pending entries only disappear; the state invariant is kept |
| IframeRpc.RecvAsWritten | hf-demo/iframe-rpc.js:119-121 | the dispatcher as written never runs a handler |
| IframeRpc.Reply | hf-demo/iframe-rpc.js:123-127 | a reply is sent exactly when the original id is truthy, as a `__CALLBACK__` envelope on the same channel with `{error, data}` and that id, changing no state |
| IframeRpc.NewChannel | hf-demo/iframe-rpc.js:146-151 | the channel is registered with its name, origin and target and no handlers, on the given RPC object or on a fresh one; on a given object every other channel, its handlers, the callbacks and the counter are kept |
| IframeRpc.ChannelCall | hf-demo/iframe-rpc.js:163-165 | `call` on this channel's name with keepListen false: an unregistered name throws with nothing changed; it posts to the channel's target and origin exactly when there is a target; a function callback gets id counter+1 and is stored one-shot; channels and tables unchanged; the invariant is kept |
| IframeRpc.On | hf-demo/iframe-rpc.js:167-169 | on a registered channel the action's handler becomes the listener; every other channel and action keeps its handler; channels, callbacks and counter unchanged; an unregistered channel is left alone; the invariant is kept |
| IframeRpc.SetTarget | hf-demo/iframe-rpc.js:172-173 | only this channel's target changes, to the given window |
| IframeRpc.SetOrigin | hf-demo/iframe-rpc.js:174 | only this channel's origin changes |
| IframeRpcProperties.FirstCallbackIdIsOne | hf-demo/iframe-rpc.js:85-89 | the first function callback of a new RPC object gets id 1 and is the only pending entry |
| IframeRpcProperties.CallbackIdsIncrease | hf-demo/iframe-rpc.js:85-89 | successive callback ids strictly increase and each new id exceeds every pending id, so none is reused |
| IframeRpcProperties.LiteralIdAllocatesNothing | hf-demo/iframe-rpc.js:89-91 | forwarding a literal id changes no table and no counter |
| IframeRpcProperties.OneShotCallbackRunsOnce | hf-demo/iframe-rpc.js:110-118 | a one-shot callback runs once and is removed; a repeated reply does nothing |
| IframeRpcProperties.KeepListenRunsEveryTime | hf-demo/iframe-rpc.js:113-117 | a keep-listening callback runs on every reply and stays pending |
| IframeRpcProperties.UnknownReplyIgnored | hf-demo/iframe-rpc.js:111-113 | a reply for an id nobody waits for changes nothing and runs nothing |
| IframeRpcProperties.CallReplyRoundTrip | hf-demo/iframe-rpc.js:119-127 | end to end, the callee's handler gets the caller's params and the caller's callback gets exactly the callee's `(err, val)`; a one-shot caller is then back to its old state with the counter advanced |
| IframeRpcProperties.FireAndForgetHasNoReply | hf-demo/iframe-rpc.js:123-127 | without a callback id the handler still runs but its reply sends nothing |
| IframeRpcProperties.UnknownActionLogged | hf-demo/iframe-rpc.js:128-130 | an unregistered action is logged and runs nothing |
| IframeRpcProperties.AsWrittenDispatchThrows | hf-demo/iframe-rpc.js:121 | for every installed handler the code as written throws where the intended dispatcher runs it |
| IframeRpcProperties.AsWrittenMuteIsNeverHandled | hf-demo/iframe-rpc.js:119-122 | a page's `mute` handler on `webrtc` is never reached as written |
| RtcChannel.SerializeError | hf-demo/rtc-channel.js:80-82 | a falsy error gives `''`; otherwise an object with exactly `message`, `stack` and `error` copied from it |
| RtcChannel.NewRtcChannel | hf-demo/rtc-channel.js:10-13 | the one channel is `webrtc` with origin `*` and no target; no callbacks, no handlers |
| RtcChannel.MuteCall | hf-demo/rtc-channel.js:16-23 | posts action `mute` with `{mute}` and no callback field exactly when the channel has a target; state unchanged |
| RtcChannel.Mute | hf-demo/rtc-channel.js:16-18 | posts `{mute: true}` on `webrtc` with no callback exactly when `webrtc` has a target; state unchanged |
| RtcChannel.Unmute | hf-demo/rtc-channel.js:21-23 | posts `{mute: false}` on `webrtc` with no callback exactly when `webrtc` has a target; state unchanged |
| RtcChannel.UserJoinedCall | hf-demo/rtc-channel.js:46-48 | posts action `userJoined` with no data and no callback; state unchanged |
| RtcChannel.UserJoined | hf-demo/rtc-channel.js:46-48 | posts `userJoined` on `webrtc` with no data and no callback exactly when `webrtc` has a target; state unchanged |
| RtcChannel.ConfigCall | hf-demo/rtc-channel.js:37-43 | posts `config` with the service type and a fresh one-shot callback id whose entry is the application's wrapper |
| RtcChannel.GetRtcService | hf-demo/rtc-channel.js:37-43 | on `webrtc`: the counter advances by one and the fresh id holds the one-shot wrapper; it posts `config` with that id exactly when the channel has a target |
| RtcChannel.StartupCall | hf-demo/rtc-channel.js:39-41 | the continuation posts `startup` with `{error: serializeError(error), data}` and no callback; state unchanged |
| RtcChannel.Startup | hf-demo/rtc-channel.js:39-41 | on `webrtc`, with `''` as the error field for a falsy error |
| AgoraChannel.NewAgoraChannel | hf-demo/agora/channel.js:7-10 | one channel `artc` with origin `*` and no target on a fresh RPC object, with no callbacks and no handlers |
| AgoraChannel.Invoke | hf-demo/agora/channel.js:12-43 | in a frame exactly `getRtcService` and `userJoined` exist, otherwise exactly `mute` and `unmute`; an existing method posts exactly when `artc` has a target, with its fixed envelope; `getRtcService` stores a fresh one-shot wrapper |
| AgoraChannel.AgoraStartup | hf-demo/agora/channel.js:18-24 | posts `startup` on `artc` with the serialised error and the data, no callback, exactly when `artc` has a target; state unchanged |
| RtcHandshake.NothingPostedWithoutTarget | hf-demo/rtc-channel.js:11-13 | every method of a fresh `webrtc` channel throws for want of a target; `getRtcService` has stored its callback first |
| RtcHandshake.MuteAfterSetTarget | hf-demo/rtc-channel.js:16-18 | after `setTarget(w)` the page's mute posts `{mute: true}` to `w` with origin `*` |
| RtcHandshake.AgoraMethodSets | hf-demo/agora/channel.js:12-43 | the page object has no `getRtcService`/`userJoined`, the frame object no `mute`/`unmute` |
| RtcHandshake.ConfigStartupHandshake | hf-demo/rtc-channel.js:37-43 | the frame's `config` reaches the page handler, the reply reaches the frame's wrapper as exactly `(err, config)` and removes it, and the continuation posts `startup` with the serialised error |
| TagStrip.FindClose | webrtc-video-call/chat-server.js:130 | the first `>` at or after a position, or the end |
| TagStrip.StripTags | webrtc-video-call/chat-server.js:130 | the result is no longer than the text, uses only its characters, and equals it when there is no `<` |
| TagStrip.StripTagsLeavesNoTag | webrtc-video-call/chat-server.js:130 | the stripped text contains no `<`, one or more non-`>`, `>` |
| TagStrip.StripTagsUnchangedIff | webrtc-video-call/chat-server.js:130 | the text is left unchanged exactly when it contains no tag |
| TagStrip.StripTagsIdempotent | webrtc-video-call/chat-server.js:130 | stripping twice is stripping once |
| TagStrip.StripTagsKeepsPlainPrefix | webrtc-video-call/chat-server.js:130 | text before the first `<` is kept unchanged in front of the stripped rest |
| TagStrip.StripTagsDropsHeadTag | webrtc-video-call/chat-server.js:130 | a tag at the head is removed whole and stripping resumes after its `>` |
| TagStrip.StripTagsKeepsUnmatchedOpen | webrtc-video-call/chat-server.js:130 | a `<` that begins no tag is kept and stripping resumes after it |
| TagStrip.StripTagsExample | webrtc-video-call/chat-server.js:130 | `<b>hi</b>` becomes `hi`; `<>` is kept |
| ChatServer.Init | webrtc-video-call/chat-server.js:27-29 | empty list, ids seeded by the clock, counter 1; the relay invariant holds |
| ChatServer.IsUsernameUnique | webrtc-video-call/chat-server.js:35-37 | a name is unique exactly when no connection has it |
| ChatServer.FindByUsername | webrtc-video-call/chat-server.js:44-46 | the first connection with the name, or none exactly when nobody has it |
| ChatServer.FindByID | webrtc-video-call/chat-server.js:48-50 | the first connection with the id, or none exactly when nobody has it |
| ChatServer.MakeUserListMessage | webrtc-video-call/chat-server.js:55-67 | a user list of every connection's username, unnamed ones included, in list order |
| ChatServer.SendUserListToAll | webrtc-video-call/chat-server.js:73-80 | every connection, in list order, gets that user list |
| ChatServer.Route | webrtc-video-call/chat-server.js:174-186 | a non-empty target reaches only the connection with that username, or no one; otherwise every connection, the sender included; the message is passed on unchanged |
| ChatServer.NextFreeSuffix | webrtc-video-call/chat-server.js:140-144 | the first counter value at or after the current one whose candidate is free, every skipped candidate being taken; the search terminates |
| ChatServer.ResolveUsername | webrtc-video-call/chat-server.js:134-144 | a free name is kept with the counter untouched; a taken one becomes `orig + k` for the counter value reached, the counter moving past every rejected candidate; the result is free |
| ChatServer.Connect | webrtc-video-call/chat-server.js:100-108 | the socket is appended with the next id, the counter advances, the socket alone is told its id; the invariant is kept |
| ChatServer.HandleUsername | webrtc-video-call/chat-server.js:134-165 | the sender takes the name and the counter `ResolveUsername` gives, a name no connection had; a free name gives no notice, a taken one gives the sender alone a `rejectusername` with the final name; then everyone gets the user list and nothing is relayed; an unknown sender throws with the list unchanged and the counter still advanced; the invariant is kept |
| ChatServer.UsernamePreservesDistinct | webrtc-video-call/chat-server.js:162 | taking a name nobody has keeps named usernames pairwise distinct |
| ChatServer.HandleChat | webrtc-video-call/chat-server.js:128-131 | the relayed message carries the sender's username and its text stripped of every tag; an unknown sender or missing text throws |
| ChatServer.HandleMessage | webrtc-video-call/chat-server.js:126-187 | types other than `message` and `username` are routed unchanged; a `username` message is never relayed; the invariant is kept |
| ChatServer.HandleFrame | webrtc-video-call/chat-server.js:110-111 | a non-text frame does nothing; the invariant is kept |
| ChatServer.RemoveConnection | webrtc-video-call/chat-server.js:193-195 | exactly the connections without the closed id remain |
| ChatServer.RemoveKeepsOrder | webrtc-video-call/chat-server.js:192-194 | the remaining connections keep their original order |
| ChatServer.RemoveKeepsIdsIncreasing | webrtc-video-call/chat-server.js:193-195 | removing a connection keeps ids increasing along the list |
| ChatServer.RemoveKeepsNamesDistinct | webrtc-video-call/chat-server.js:193-195 | removing a connection keeps usernames distinct |
| ChatServer.Close | webrtc-video-call/chat-server.js:191-199 | the closed connection leaves, the rest keep their order, the remaining connections get the user list, counters unchanged, invariant kept |
| ChatServer.CloseAsWritten | webrtc-video-call/chat-server.js:193 | as written, the handler throws with the list unchanged |
| ChatServerProperties.HandlersPreserveValid | webrtc-video-call/chat-server.js:100-199 | every handler keeps ids distinct and increasing and named usernames distinct |
| ChatServerProperties.ConnectIdsIncrease | webrtc-video-call/chat-server.js:102-108 | successive connections get ids `now` and `now + 1` and are told so |
| ChatServerProperties.ThreeConnected | webrtc-video-call/chat-server.js:102-105 | three connections get ids `now`, `now + 1`, `now + 2` |
| ChatServerProperties.FirstAlice | webrtc-video-call/chat-server.js:140-144 | a free `alice` is kept |
| ChatServerProperties.SecondAlice | webrtc-video-call/chat-server.js:140-144 | a second `alice` becomes `alice1`, counter 2 |
| ChatServerProperties.ThirdAlice | webrtc-video-call/chat-server.js:140-144 | a third `alice` becomes `alice2`, counter 3 |
| ChatServerProperties.SuffixesGrow | webrtc-video-call/chat-server.js:140-144 | three requests for `alice` from a fresh relay give alice, alice1, alice2 and leave the counter at 3 |
| ChatServerProperties.CarlNamed | webrtc-video-call/chat-server.js:162-163 | a lone peer naming itself `carl` gets the list `["carl"]` and no notice |
| ChatServerProperties.CarlClash | webrtc-video-call/chat-server.js:140-163 | a second `carl` is told `carl1` and both get `["carl", "carl1"]` |
| ChatServerProperties.TwoPeersNamedCarl | webrtc-video-call/chat-server.js:100-165 | the whole two-peer exchange, id messages included |
| ChatServerProperties.CloseAsWrittenKeepsClosedSocket | webrtc-video-call/chat-server.js:193-195 | as written the closed socket stays listed; as intended it is gone |
| ChatServerProperties.CloseBroadcastsRemainingList | webrtc-video-call/chat-server.js:191-199 | when `carl1` leaves, `carl` alone gets `["carl"]` |
| ChatServerProperties.TargetedAndBroadcast | webrtc-video-call/chat-server.js:180-186 | a message for `bob` reaches bob alone, or no one when nobody is bob; without a target or with an empty one, each connection in list order gets the message |
| QueryString.Split | zego-video-talk/main.js:64 | the pieces contain no separator, there is at least one, and joined with the separator they give back the text |
| QueryString.SplitJoin | zego-video-talk/main.js:64 | splitting undoes joining separator-free pieces |
| QueryString.EntryKey | zego-video-talk/main.js:67-68 | the key is the text before the first `=`, or the whole item when it has none |
| QueryString.EntryValue | zego-video-talk/main.js:67-68 | an item without `=` has value `undefined`; otherwise the value is the text between the first `=` and the next `=` or the end, so the item begins with key, `=`, value |
| QueryString.ParamMap | zego-video-talk/main.js:66-69 | a key is present exactly when some item has it, and maps to the value of its last item |
| QueryString.GetParamByName | zego-video-talk/main.js:61-71 | fewer than two characters give `null`; otherwise an absent key gives `undefined` and a present one the value of its last item, which contains no `&` or `=` |
| QueryString.FirstCharacterIgnored | zego-video-talk/main.js:64 | the first character is dropped whatever it is |
| QueryString.NoPercentDecoding | zego-video-talk/main.js:70 | `?q=a%20b` gives `a%20b`, undecoded |
| QueryString.SplitRepeated | zego-video-talk/main.js:64 | `a=1&a=2` splits into its two items |
| QueryString.EntryOfSecondItem | zego-video-talk/main.js:67-68 | `a=2` has key `a` and value `2` |
| QueryString.RepeatedKeyLastWins | zego-video-talk/main.js:66-70 | `?a=1&a=2` gives `2` for `a` |
| QueryString.ItemWithoutEqualsIsUndefined | zego-video-talk/main.js:67-68 | `?x&y=1` gives `undefined` for `x` |
| QueryString.LaterBareItemWins | zego-video-talk/main.js:64-70 | in `?x=1&x` the later `x`, which has no `=`, overrides `1` with `undefined` |
| QueryString.EntryOfEscapedItem | zego-video-talk/main.js:67-68 | `q=a%20b` has key `q` and the undecoded value `a%20b` |

## Left out

- `IframeRpc.listen`, `IframeChannel.send` (`postMessage`), the window `message` listeners and `debug` logging are browser I/O. Sending is the returned `Post`; a logged error is an event or an unchanged state.
- `setFrame` is `SetTarget` with the frame's window: the DOM element is not modelled.
- The relay's HTTPS server, certificate reads, port, `socket.send` and JSON parse/stringify are I/O. Messages are records, and `Date.now()` is a parameter.
- The relay loads the `ws` package (webrtc-video-call/chat-server.js:23), but reads the `websocket` package's API: `message.type === 'utf8'` and `message.utf8Data` (lines 111-112) and `el.connected` (line 194). Taken literally, a `ws` message has no `type` field and no frame passes line 111. The model assumes the `websocket` message shape: `HandleFrame`'s `Utf8` case is a text frame that reaches the handlers.
- The `id` and `rejectusername` messages are handed to `send` as objects (webrtc-video-call/chat-server.js:108, 155). The user list and relayed messages are sent as JSON text (lines 75, 175), and the client runs `JSON.parse` on every message (webrtc-video-call/chat-client.js:59). The model treats every send as a delivered record, so `Connect`'s "the socket alone is told its id" and `HandleUsername`'s notice assume that the object arrives as that message. How `ws` serialises a plain object is not part of this model.
- webrtc-video-call/chat-client.js, the SDK controllers and bootstrap scripts, mock.js and webrtc-capture are not part of this model. They are browser and SDK glue.
- The `mute` handlers registered as `(cb, data)` while the dispatcher calls `(params, reply)` live in the SDK bootstrap scripts, which are not part of this model.
- Keys inherited from `Object.prototype` (`toString`, `__proto__`) are not modelled. Action tables, `_callbacks` and the query-string map are plain maps, so such keys are absent.
- Non-string `channel`/`action` fields of an incoming envelope are not modelled. They are `Option<string>`; callback ids are integers or strings.
- JavaScript numbers are not modelled as floating point. `Value.Num` holds an integer; no counter here leaves the exact integer range.
- Suffixes of 10^21 and above are not modelled: JavaScript writes them in exponent notation, while `Decimal.NatToString` writes plain decimal.
- Two `IframeChannel` objects with the same name sharing one RPC object alias one table entry in the source. The model keeps channel records by name, so the later record replaces the earlier one.
- Every `IframeChannel` constructor adds its own window `message` listener (hf-demo/iframe-rpc.js:152-155). An RPC object shared by k channels (`NewChannel` given an existing object) therefore runs `_recv` k times per message, so handlers and keep-listening callbacks run k times. `IframeRpc.Recv` models one delivery to one listener; its "at most one event" is per listener, and the repetition is not modelled.
- Replies are not scoped by channel (hf-demo/iframe-rpc.js:110-111), and every RPC object's counter starts at 0 (line 12). Two RPC objects listening in one window therefore both resolve a reply for id n. The model follows one RPC object per window and does not model the second listener.
- hf-demo/agora/channel.js:5 imports `IframeChannel` from `../util/iframe-rpc`, which is not part of this model. `AgoraChannel` assumes it behaves as hf-demo/iframe-rpc.js does.
- ChatServer.HandleUsername: requires the message to carry a name. In the source a missing name takes part in the uniqueness loop as `undefined` and then `NaN`; that path is not modelled.
- ChatServer.HandleChat: `msg.text` is a string when present. A non-string text, which throws in `replace`, is not distinguished from a missing one.
- ChatServer.Close: removes the connection with the closed socket's id. The source's intended filter reads each socket's `connected` flag, which the model does not track.
- ChatServer.HandleFrame: states only the binary case and the invariant. The text case is stated by `HandleMessage`, `HandleChat` and `HandleUsername`.
- RtcChannel.Startup: states the envelope's action, missing callback and falsy-error field. The full envelope is stated by `RtcChannel.StartupCall`.

## Findings

| source | as written | input that shows it | evidently intended | confidence | as-written member | corrected member |
|---|---|---|---|---|---|---|
| hf-demo/iframe-rpc.js:121 | dispatch reads `channel.actions[actionName]`, a field no `IframeChannel` has, so it throws on every registered channel | a page calls `on('mute', h)` on `webrtc`, then receives `{channel: 'webrtc', action: 'mute', data: {mute: true}}` | read the handler from `this._actions[channelName]`, where `setAction` and `setActions` store it | high (not executed) | IframeRpc.RecvAsWritten, shown by IframeRpcProperties.AsWrittenDispatchThrows and IframeRpcProperties.AsWrittenMuteIsNeverHandled | IframeRpc.Recv |
| webrtc-video-call/chat-server.js:193 | the `close` handler assigns to `connectionList`, declared `const` at line 27, so it throws before removing the socket or sending the list | any `close` event, e.g. peer `carl1` (id 1002) leaving a relay with `carl` and `carl1` | remove the closed connection, keep the others in order, and send the remaining connections the user list | high (not executed) | ChatServer.CloseAsWritten, shown by ChatServerProperties.CloseAsWrittenKeepsClosedSocket | ChatServer.Close |

=== FILE: agora_channel.dfy ===
/**
 * The `artc` channel of hf-demo/agora/channel.js: one channel object for the
 * page or the frame, whose extra methods depend on whether the code runs in
 * a frame. The envelopes are the ones the `webrtc` clients build, on the
 * `artc` channel; the file's own `serializeError` is identical to
 * `RtcChannel.SerializeError`.
 */
module AgoraChannel {
  import opened Wrappers
  import opened Values
  import opened IframeRpc
  import opened RtcChannel

  const AGORA_CHANNEL: string := "artc"

  /** The methods the module adds to the channel object. */
  datatype Method =
    | GetRtcServiceMethod(serviceType: Value, app: nat)
    | UserJoinedMethod
    | MuteMethod
    | UnmuteMethod

  /** Calling a method the object does not have throws; otherwise the call's outcome. */
  datatype Invocation = NotAFunction | Invoked(outcome: CallOutcome<ClientFn>)

  /** The module-level channel: `artc`, origin `*`, no target, on a fresh RPC object. */
  function NewAgoraChannel(): (r: Rpc<ClientFn>)
    ensures Valid(r)
    ensures r.channels == map[AGORA_CHANNEL := Channel(AGORA_CHANNEL, Some("*"), None)]
    ensures r.callbacks == map[] && r.callbackId == 0
    ensures forall action :: HandlerFor(r, AGORA_CHANNEL, action).None?
  {
    NewChannel(None, AGORA_CHANNEL, Some("*"), None)
  }

  /** The method names installed: the frame side asks for service, the page side mutes. */
  function Methods(isIframe: bool): set<string> {
    if isIframe then {"getRtcService", "userJoined"} else {"mute", "unmute"}
  }

  function MethodName(m: Method): string {
    match m
    case GetRtcServiceMethod(_, _) => "getRtcService"
    case UserJoinedMethod => "userJoined"
    case MuteMethod => "mute"
    case UnmuteMethod => "unmute"
  }

  /**
   * Calling one of the added methods on the channel object. In a frame only
   * `getRtcService` and `userJoined` exist; otherwise only `mute` and
   * `unmute`.
   */
  function Invoke(isIframe: bool, st: Rpc<ClientFn>, m: Method): (r: Invocation)
    ensures r.Invoked? <==> (isIframe <==> m.GetRtcServiceMethod? || m.UserJoinedMethod?)
    ensures r.Invoked? <==> MethodName(m) in Methods(isIframe)
    ensures r.Invoked? && !m.GetRtcServiceMethod? ==> r.outcome.st == st
    ensures r.Invoked? ==> (r.outcome.Sent? <==> AGORA_CHANNEL in st.channels && st.channels[AGORA_CHANNEL].target.Some?)
    ensures r.Invoked? && r.outcome.Sent? ==>
      r.outcome.post.envelope == match m
        case MuteMethod => Envelope("artc", "mute", Obj(map["mute" := Bool(true)]), None)
        case UnmuteMethod => Envelope("artc", "mute", Obj(map["mute" := Bool(false)]), None)
        case UserJoinedMethod => Envelope("artc", "userJoined", Undefined, None)
        case GetRtcServiceMethod(serviceType, _) => Envelope("artc", "config", serviceType, Some(IdNum(r.outcome.st.callbackId)))
    ensures r.Invoked? && m.GetRtcServiceMethod? && AGORA_CHANNEL in st.channels ==>
      && r.outcome.st.callbackId == st.callbackId + 1
      && r.outcome.st.callbacks == st.callbacks[r.outcome.st.callbackId := Pending(ConfigThen(m.app), false)]
  {
    if MethodName(m) !in Methods(isIframe) then NotAFunction
    else Invoked(
      match m
      case GetRtcServiceMethod(serviceType, app) => ConfigCall(st, AGORA_CHANNEL, serviceType, app)
      case UserJoinedMethod => UserJoinedCall(st, AGORA_CHANNEL)
      case MuteMethod => MuteCall(st, AGORA_CHANNEL, true)
      case UnmuteMethod => MuteCall(st, AGORA_CHANNEL, false))
  }

  /** The continuation of the frame's `getRtcService`: `startup` on `artc` with the serialised error. */
  function AgoraStartup(st: Rpc<ClientFn>, error: Value, data: Value): (r: CallOutcome<ClientFn>)
    ensures r.st == st
    ensures r.Sent? <==> AGORA_CHANNEL in st.channels && st.channels[AGORA_CHANNEL].target.Some?
    ensures r.Sent? ==>
      r.post.envelope == Envelope("artc", "startup", Obj(map["error" := SerializeError(error), "data" := data]), None)
  {
    StartupCall(st, AGORA_CHANNEL, error, data)
  }
}

=== FILE: chat_server.dfy ===
/**
 * The WebSocket signaling relay of webrtc-video-call/chat-server.js: the
 * ordered list of connections, client-id allocation, username
 * de-duplication with the global suffix counter, user-list broadcasts, and
 * the unicast/broadcast routing of every other message.
 *
 * Messages are records rather than JSON text, and a socket is named by its
 * client id: an operation returns the deliveries `socket.send` would make,
 * in order. `Date.now()`, which seeds the id counter, is the parameter of
 * `Init`. A JavaScript exception is an outcome carrying the state as it was
 * mutated before the throw.
 */
module ChatServer {
  import opened Wrappers
  import opened Values
  import Decimal
  import TagStrip

  /** A socket in the connection list; `username` is `None` until the client names itself. */
  datatype Connection = Connection(clientID: int, username: Option<string>)

  /** The relay's module-level state: `connectionList`, `nextID`, `appendToMakeUnique`. */
  datatype Relay = Relay(connections: seq<Connection>, nextID: int, appendToMakeUnique: nat)

  /**
   * An incoming message. `kind` is its `type`; `id` is the sender id the
   * client claims; `rest` stands for every field the relay passes through
   * without reading.
   */
  datatype Msg = Msg(kind: string, id: int, name: Option<string>, text: Option<string>,
                     target: Option<string>, rest: Value)

  /** What the relay sends. */
  datatype Out =
    | IdAssigned(id: int)
    | RejectUsername(id: int, name: string)
    | UserList(users: seq<Option<string>>)
    | Relayed(msg: Msg)

  datatype Delivery = Delivery(to: int, out: Out)

  /** A WebSocket frame: only text frames are processed. */
  datatype Frame = Utf8(msg: Msg) | Binary

  datatype Step = Step(st: Relay, out: seq<Delivery>) | Threw(st: Relay)

  /** The result of username de-duplication: the final name and the new counter value. */
  datatype Resolved = Resolved(name: string, counter: nat)

  /** The state when the server starts; `now` is the clock reading that seeds client ids. */
  function Init(now: int): (r: Relay)
    ensures Valid(r)
    ensures r.connections == [] && r.nextID == now && r.appendToMakeUnique == 1
  {
    Relay([], now, 1)
  }

  // ---- Invariants ----

  /** Client ids increase along the list. */
  ghost predicate IdsIncreasing(conns: seq<Connection>) {
    forall i, j :: 0 <= i < j < |conns| ==> conns[i].clientID < conns[j].clientID
  }

  /** No two named connections share a username. */
  ghost predicate NamesDistinct(conns: seq<Connection>) {
    forall i, j :: 0 <= i < |conns| && 0 <= j < |conns| && i != j && conns[i].username.Some? ==>
      conns[i].username != conns[j].username
  }

  ghost predicate Valid(st: Relay) {
    && IdsIncreasing(st.connections)
    && NamesDistinct(st.connections)
    && (forall i :: 0 <= i < |st.connections| ==> st.connections[i].clientID < st.nextID)
  }

  // ---- Lookups ----

  /** The names currently taken: the usernames of named connections. */
  function NameSet(conns: seq<Connection>): set<string> {
    set i | 0 <= i < |conns| && conns[i].username.Some? :: conns[i].username.value
  }

  /** `isUsernameUnique(name)`: no connection, the asking one included, has this username. */
  function IsUsernameUnique(conns: seq<Connection>, name: string): (r: bool)
    ensures r <==> name !in NameSet(conns)
  {
    if exists i :: 0 <= i < |conns| && conns[i].username == Some(name) then
      assert conns[FindByUsername(conns, name, 0).value].username.value == name;
      false
    else true
  }

  /** `getConnectionByUsername`: the first connection from `from` on with this username. */
  function FindByUsername(conns: seq<Connection>, name: string, from: nat): (r: Option<nat>)
    requires from <= |conns|
    ensures r.Some? ==> from <= r.value < |conns| && conns[r.value].username == Some(name)
    ensures r.Some? ==> forall k :: from <= k < r.value ==> conns[k].username != Some(name)
    ensures r.None? ==> forall k :: from <= k < |conns| ==> conns[k].username != Some(name)
    decreases |conns| - from
  {
    if from == |conns| then None
    else if conns[from].username == Some(name) then Some(from)
    else FindByUsername(conns, name, from + 1)
  }

  /** `getConnectionByID`: the first connection from `from` on with this client id. */
  function FindByID(conns: seq<Connection>, id: int, from: nat): (r: Option<nat>)
    requires from <= |conns|
    ensures r.Some? ==> from <= r.value < |conns| && conns[r.value].clientID == id
    ensures r.Some? ==> forall k :: from <= k < r.value ==> conns[k].clientID != id
    ensures r.None? ==> forall k :: from <= k < |conns| ==> conns[k].clientID != id
    decreases |conns| - from
  {
    if from == |conns| then None
    else if conns[from].clientID == id then Some(from)
    else FindByID(conns, id, from + 1)
  }

  // ---- User lists ----

  /** `makeUserListMessage`: every connection's username, unnamed ones included, in list order. */
  function MakeUserListMessage(conns: seq<Connection>): (r: Out)
    ensures r.UserList? && |r.users| == |conns|
    ensures forall i :: 0 <= i < |conns| ==> r.users[i] == conns[i].username
  {
    UserList(seq(|conns|, i requires 0 <= i < |conns| => conns[i].username))
  }

  /** `sendUserListToAll`: the same user list to every connection, named or not, in list order. */
  function SendUserListToAll(conns: seq<Connection>): (r: seq<Delivery>)
    ensures |r| == |conns|
    ensures forall i :: 0 <= i < |conns| ==> r[i] == Delivery(conns[i].clientID, MakeUserListMessage(conns))
  {
    seq(|conns|, i requires 0 <= i < |conns| => Delivery(conns[i].clientID, MakeUserListMessage(conns)))
  }

  // ---- Routing ----

  /** A message with a non-empty `target` is for one user only. */
  predicate IsTargeted(m: Msg) {
    m.target.Some? && m.target.value != ""
  }

  /**
   * Relaying a message: a non-empty `target` delivers only to the connection
   * with that username, or to no one if none has it; otherwise every
   * connection, the sender included, gets it.
   */
  function Route(conns: seq<Connection>, m: Msg): (r: seq<Delivery>)
    ensures forall d :: d in r ==> d.out == Relayed(m)
    ensures IsTargeted(m) ==> |r| <= 1
    ensures IsTargeted(m) ==> (|r| == 1 <==> m.target.value in NameSet(conns))
    ensures IsTargeted(m) && |r| == 1 ==>
      exists i :: 0 <= i < |conns| && conns[i].clientID == r[0].to && conns[i].username == m.target
    ensures !IsTargeted(m) ==> |r| == |conns| && forall i :: 0 <= i < |conns| ==> r[i].to == conns[i].clientID
  {
    if IsTargeted(m) then
      match FindByUsername(conns, m.target.value, 0)
      case Some(i) => [Delivery(conns[i].clientID, Relayed(m))]
      case None => []
    else seq(|conns|, i requires 0 <= i < |conns| => Delivery(conns[i].clientID, Relayed(m)))
  }

  // ---- Username de-duplication ----

  /** The candidate `origName + k`. */
  function Suffixed(orig: string, k: nat): string {
    orig + Decimal.NatToString(k)
  }

  /** `n` is `orig` followed by the decimal text of some number at least `k`. */
  ghost predicate SuffixAtLeast(n: string, orig: string, k: nat) {
    && |n| > |orig|
    && n[..|orig|] == orig
    && Decimal.ParseNat(n[|orig|..]).Some?
    && Decimal.ParseNat(n[|orig|..]).value >= k
  }

  /** The taken names that some later candidate of the loop could still hit. */
  ghost function StillReachable(taken: set<string>, orig: string, k: nat): set<string> {
    set n | n in taken && SuffixAtLeast(n, orig, k)
  }

  /** A rejected candidate is never produced again, so fewer taken names remain reachable. */
  lemma ReachableShrinks(taken: set<string>, orig: string, k: nat)
    requires Suffixed(orig, k) in taken
    ensures |StillReachable(taken, orig, k + 1)| < |StillReachable(taken, orig, k)|
  {
    var c := Suffixed(orig, k);
    assert c[..|orig|] == orig && c[|orig|..] == Decimal.NatToString(k);
    Decimal.ParseNatToString(k);
    assert c in StillReachable(taken, orig, k);
    assert c !in StillReachable(taken, orig, k + 1);
    assert StillReachable(taken, orig, k + 1) <= StillReachable(taken, orig, k) - {c};
    SubsetCardinality(StillReachable(taken, orig, k + 1), StillReachable(taken, orig, k) - {c});
  }

  lemma SubsetCardinality<T>(a: set<T>, b: set<T>)
    requires a <= b
    ensures |a| <= |b|
  {
    if a != b {
      var x :| x in b && x !in a;
      SubsetCardinality(a, b - {x});
    }
  }

  /**
   * The loop's suffix search from counter value `k`: the first `j >= k` whose
   * candidate is free. Every candidate it passes over is taken.
   */
  function NextFreeSuffix(taken: set<string>, orig: string, k: nat): (j: nat)
    ensures j >= k
    ensures Suffixed(orig, j) !in taken
    ensures forall i :: k <= i < j ==> Suffixed(orig, i) in taken
    decreases |StillReachable(taken, orig, k)|
  {
    if Suffixed(orig, k) in taken then
      ReachableShrinks(taken, orig, k);
      NextFreeSuffix(taken, orig, k + 1)
    else k
  }

  /**
   * The `while (!isUsernameUnique(msg.name))` loop. A free name is kept and
   * the counter is untouched; otherwise the candidates `orig + k`,
   * `orig + (k+1)`, ... are tried from the current counter, the counter
   * advancing once per rejected candidate, and the first free one is final.
   */
  function ResolveUsername(taken: set<string>, orig: string, counter: nat): (r: Resolved)
    ensures r.name !in taken
    ensures orig !in taken ==> r == Resolved(orig, counter)
    ensures orig in taken ==>
      && r.counter > counter
      && r.name == Suffixed(orig, r.counter - 1)
      && forall i :: counter <= i < r.counter - 1 ==> Suffixed(orig, i) in taken
  {
    if orig !in taken then Resolved(orig, counter)
    else
      var j := NextFreeSuffix(taken, orig, counter);
      Resolved(Suffixed(orig, j), j + 1)
  }

  // ---- Handlers ----

  /** The `connection` handler: the socket joins the list with the next id and is told its id. */
  function Connect(st: Relay): (r: Step)
    ensures r.Step?
    ensures r.st.connections == st.connections + [Connection(st.nextID, None)]
    ensures r.st.nextID == st.nextID + 1 && r.st.appendToMakeUnique == st.appendToMakeUnique
    ensures r.out == [Delivery(st.nextID, IdAssigned(st.nextID))]
    ensures Valid(st) ==> Valid(r.st)
  {
    Step(Relay(st.connections + [Connection(st.nextID, None)], st.nextID + 1, st.appendToMakeUnique),
         [Delivery(st.nextID, IdAssigned(st.nextID))])
  }

  /**
   * A `username` message. The requested name is de-duplicated against every
   * current username, the sender's own included; if it had to change, the
   * sender alone is sent a `rejectusername` with the final name. The sender
   * then takes the name and every connection gets the user list. The message
   * itself is not relayed. A sender id that names no connection throws after
   * the counter has moved.
   */
  function HandleUsername(st: Relay, m: Msg): (r: Step)
    requires m.name.Some?
    ensures r.st.appendToMakeUnique >= st.appendToMakeUnique
    ensures m.name.value !in NameSet(st.connections) ==> r.st.appendToMakeUnique == st.appendToMakeUnique
    ensures m.name.value in NameSet(st.connections) ==> r.st.appendToMakeUnique > st.appendToMakeUnique
    ensures r.Threw? <==> FindByID(st.connections, m.id, 0).None?
    ensures r.st.appendToMakeUnique == ResolveUsername(NameSet(st.connections), m.name.value, st.appendToMakeUnique).counter
    ensures r.Threw? ==> r.st.connections == st.connections
    ensures r.st.nextID == st.nextID
    ensures r.Step? ==> forall d :: d in r.out ==> d.out.RejectUsername? || d.out.UserList?
    ensures r.Step? ==>
      var i := FindByID(st.connections, m.id, 0).value;
      var orig := m.name.value;
      && i < |r.st.connections| && r.st.connections[i].username.Some?
      && var final := r.st.connections[i].username.value;
        && r.st.connections == st.connections[i := Connection(m.id, Some(final))]
        && final == ResolveUsername(NameSet(st.connections), orig, st.appendToMakeUnique).name
        && final !in NameSet(st.connections)
        && (orig !in NameSet(st.connections) ==>
              final == orig && r.out == SendUserListToAll(r.st.connections))
        && (orig in NameSet(st.connections) ==>
              && final == Suffixed(orig, r.st.appendToMakeUnique - 1)
              && r.out == [Delivery(m.id, RejectUsername(m.id, final))] + SendUserListToAll(r.st.connections))
    ensures Valid(st) ==> Valid(r.st)
  {
    var taken := NameSet(st.connections);
    var resolved := ResolveUsername(taken, m.name.value, st.appendToMakeUnique);
    var st1 := st.(appendToMakeUnique := resolved.counter);
    match FindByID(st.connections, m.id, 0)
    case None => Threw(st1)
    case Some(i) =>
      var conns := st.connections[i := st.connections[i].(username := Some(resolved.name))];
      var reject := if m.name.value in taken then [Delivery(m.id, RejectUsername(m.id, resolved.name))] else [];
      assert Valid(st) ==> Valid(st1.(connections := conns)) by {
        if Valid(st) {
          UsernamePreservesDistinct(st.connections, i, resolved.name);
        }
      }
      Step(st1.(connections := conns), reject + SendUserListToAll(conns))
  }

  /** Renaming one connection to a name nobody has keeps usernames distinct. */
  lemma UsernamePreservesDistinct(conns: seq<Connection>, i: nat, name: string)
    requires NamesDistinct(conns) && i < |conns| && name !in NameSet(conns)
    ensures NamesDistinct(conns[i := conns[i].(username := Some(name))])
  {
    var conns' := conns[i := conns[i].(username := Some(name))];
    forall a, b | 0 <= a < |conns'| && 0 <= b < |conns'| && a != b && conns'[a].username.Some?
      ensures conns'[a].username != conns'[b].username
    {
      if a == i {
        if conns[b].username.Some? {
          assert conns[b].username.value in NameSet(conns);
        }
      } else if b == i {
        assert conns[a].username.value in NameSet(conns);
      }
    }
  }

  /**
   * A `message` (chat text): the sender's username is stamped on it and tags
   * are stripped from its text before it is routed. An unknown sender, or a
   * missing text, throws.
   */
  function HandleChat(st: Relay, m: Msg): (r: Step)
    ensures r.st == st
    ensures r.Threw? <==> FindByID(st.connections, m.id, 0).None? || m.text.None?
    ensures r.Step? ==>
      var sender := st.connections[FindByID(st.connections, m.id, 0).value];
      var stamped := m.(name := sender.username, text := Some(TagStrip.StripTags(m.text.value)));
      && stamped.text.Some? && !TagStrip.ContainsTag(stamped.text.value)
      && (forall d :: d in r.out ==> d.out == Relayed(stamped))
      && r.out == Route(st.connections, stamped)
  {
    match FindByID(st.connections, m.id, 0)
    case None => Threw(st)
    case Some(i) =>
      if m.text.None? then Threw(st)
      else
        TagStrip.StripTagsLeavesNoTag(m.text.value);
        var stamped := m.(name := st.connections[i].username, text := Some(TagStrip.StripTags(m.text.value)));
        Step(st, Route(st.connections, stamped))
  }

  /**
   * A parsed text message: chat text and usernames are handled above; every
   * other type, known or not, is routed unchanged.
   */
  function HandleMessage(st: Relay, m: Msg): (r: Step)
    requires m.kind == "username" ==> m.name.Some?
    ensures m.kind != "username" ==> r.st == st
    ensures m.kind == "username" && r.Step? ==> forall d :: d in r.out ==> !d.out.Relayed?
    ensures m.kind != "username" && m.kind != "message" ==> r == Step(st, Route(st.connections, m))
    ensures Valid(st) ==> Valid(r.st)
  {
    if m.kind == "message" then HandleChat(st, m)
    else if m.kind == "username" then HandleUsername(st, m)
    else Step(st, Route(st.connections, m))
  }

  /** The socket `message` handler: binary frames are ignored. */
  function HandleFrame(st: Relay, f: Frame): (r: Step)
    requires f.Utf8? && f.msg.kind == "username" ==> f.msg.name.Some?
    ensures f.Binary? ==> r == Step(st, [])
    ensures Valid(st) ==> Valid(r.st)
  {
    match f
    case Binary => Step(st, [])
    case Utf8(m) => HandleMessage(st, m)
  }

  /** `sub` is `conns` with some elements left out, the rest in their original order. */
  ghost predicate Subsequence(sub: seq<Connection>, conns: seq<Connection>)
    decreases |conns|
  {
    if |sub| == 0 then true
    else if |conns| == 0 then false
    else (sub[0] == conns[0] && Subsequence(sub[1..], conns[1..])) || Subsequence(sub, conns[1..])
  }

  /** The connection list without the closed socket, others kept in order. */
  function RemoveConnection(conns: seq<Connection>, id: int): (r: seq<Connection>)
    ensures forall c :: c in r <==> c in conns && c.clientID != id
    ensures |r| <= |conns|
    decreases |conns|
  {
    if |conns| == 0 then []
    else if conns[0].clientID == id then RemoveConnection(conns[1..], id)
    else [conns[0]] + RemoveConnection(conns[1..], id)
  }

  /** Removal keeps the remaining connections in their original order. */
  lemma {:induction false} RemoveKeepsOrder(conns: seq<Connection>, id: int)
    ensures Subsequence(RemoveConnection(conns, id), conns)
    decreases |conns|
  {
    if |conns| > 0 {
      var rest := RemoveConnection(conns[1..], id);
      RemoveKeepsOrder(conns[1..], id);
      if conns[0].clientID != id {
        assert ([conns[0]] + rest)[1..] == rest;
      }
    }
  }

  /** A connection whose id is below every id of an increasing list may head it. */
  lemma IncreasingCons(head: Connection, rest: seq<Connection>)
    requires IdsIncreasing(rest)
    requires forall c :: c in rest ==> head.clientID < c.clientID
    ensures IdsIncreasing([head] + rest)
  {
    var r := [head] + rest;
    forall i, j | 0 <= i < j < |r|
      ensures r[i].clientID < r[j].clientID
    {
      if i == 0 {
        assert r[j] == rest[j - 1] && rest[j - 1] in rest;
      } else {
        assert r[i] == rest[i - 1] && r[j] == rest[j - 1];
      }
    }
  }

  lemma {:induction false} RemoveKeepsIdsIncreasing(conns: seq<Connection>, id: int)
    requires IdsIncreasing(conns)
    ensures IdsIncreasing(RemoveConnection(conns, id))
    decreases |conns|
  {
    if |conns| > 0 {
      var rest := RemoveConnection(conns[1..], id);
      RemoveKeepsIdsIncreasing(conns[1..], id);
      if conns[0].clientID != id {
        forall c | c in rest
          ensures conns[0].clientID < c.clientID
        {
          var k :| 0 <= k < |conns[1..]| && conns[1..][k] == c;
          assert conns[k + 1] == c;
        }
        IncreasingCons(conns[0], rest);
      }
    }
  }

  lemma {:induction false} RemoveKeepsNamesDistinct(conns: seq<Connection>, id: int)
    requires NamesDistinct(conns)
    ensures NamesDistinct(RemoveConnection(conns, id))
    decreases |conns|
  {
    if |conns| > 0 {
      var rest := RemoveConnection(conns[1..], id);
      assert NamesDistinct(conns[1..]) by {
        forall i, j | 0 <= i < |conns[1..]| && 0 <= j < |conns[1..]| && i != j && conns[1..][i].username.Some?
          ensures conns[1..][i].username != conns[1..][j].username
        {
          assert conns[1..][i] == conns[i + 1] && conns[1..][j] == conns[j + 1];
        }
      }
      RemoveKeepsNamesDistinct(conns[1..], id);
      if conns[0].clientID != id {
        forall c | c in rest && conns[0].username.Some?
          ensures conns[0].username != c.username
        {
          var k :| 0 <= k < |conns[1..]| && conns[1..][k] == c;
          assert conns[k + 1] == c;
        }
        var r := [conns[0]] + rest;
        forall i, j | 0 <= i < |r| && 0 <= j < |r| && i != j && r[i].username.Some?
          ensures r[i].username != r[j].username
        {
          if i == 0 {
            assert r[j] == rest[j - 1] && rest[j - 1] in rest;
          } else if j == 0 {
            assert r[i] == rest[i - 1] && rest[i - 1] in rest;
          } else {
            assert r[i] == rest[i - 1] && r[j] == rest[j - 1];
          }
        }
      }
    }
  }

  /**
   * The `close` handler as intended: the closed socket leaves the list, the
   * others keep their order, and the remaining connections get the user list.
   */
  function Close(st: Relay, id: int): (r: Step)
    ensures r.Step?
    ensures r.st.connections == RemoveConnection(st.connections, id)
    ensures forall i :: 0 <= i < |r.st.connections| ==> r.st.connections[i].clientID != id
    ensures r.st.nextID == st.nextID && r.st.appendToMakeUnique == st.appendToMakeUnique
    ensures r.out == SendUserListToAll(r.st.connections)
    ensures Valid(st) ==> Valid(r.st)
  {
    var remaining := RemoveConnection(st.connections, id);
    assert forall i :: 0 <= i < |remaining| ==> remaining[i] in remaining;
    assert Valid(st) ==> forall i :: 0 <= i < |remaining| ==> remaining[i].clientID < st.nextID by {
      if Valid(st) {
        forall i | 0 <= i < |remaining|
          ensures remaining[i].clientID < st.nextID
        {
          assert remaining[i] in st.connections;
        }
      }
    }
    assert Valid(st) ==> Valid(st.(connections := remaining)) by {
      if Valid(st) {
        RemoveKeepsIdsIncreasing(st.connections, id);
        RemoveKeepsNamesDistinct(st.connections, id);
      }
    }
    Step(st.(connections := remaining), SendUserListToAll(remaining))
  }

  /**
   * The `close` handler as written: it assigns to the `const` connection
   * list, which throws before the list changes or any user list is sent.
   */
  function CloseAsWritten(st: Relay, id: int): (r: Step)
    ensures r.Threw? && r.st.connections == st.connections
  {
    Threw(st)
  }
}

=== FILE: chat_server_properties.dfy ===
/**
 * Properties of the signaling relay over sequences of events: the invariant
 * every handler keeps, deterministic suffix growth, the two-peer naming
 * exchange, and the close handler as written against as intended.
 */
module ChatServerProperties {
  import opened Wrappers
  import opened Values
  import opened ChatServer

  /** A `username` message from client `id` asking for `name`. */
  function UsernameMsg(id: int, name: string): Msg {
    Msg("username", id, Some(name), None, None, Undefined)
  }

  /** The taken names of a list, element by element. */
  lemma {:induction false} NameSetByElement(conns: seq<Connection>)
    ensures forall n :: n in NameSet(conns) <==> exists c :: c in conns && c.username == Some(n)
  {
    forall n | n in NameSet(conns)
      ensures exists c :: c in conns && c.username == Some(n)
    {
      var i :| 0 <= i < |conns| && conns[i].username.Some? && conns[i].username.value == n;
      assert conns[i] in conns;
    }
    forall n | exists c :: c in conns && c.username == Some(n)
      ensures n in NameSet(conns)
    {
      var c :| c in conns && c.username == Some(n);
      var i :| 0 <= i < |conns| && conns[i] == c;
      assert conns[i].username.value == n;
    }
  }

  /** Every handler keeps ids increasing and below `nextID`, and named usernames distinct. */
  lemma HandlersPreserveValid(st: Relay, f: Frame, id: int)
    requires Valid(st)
    requires f.Utf8? && f.msg.kind == "username" ==> f.msg.name.Some?
    ensures Valid(Connect(st).st)
    ensures Valid(HandleFrame(st, f).st)
    ensures Valid(Close(st, id).st)
  {
  }

  /** Client ids are handed out in increasing order, starting from the clock reading. */
  lemma ConnectIdsIncrease(now: int)
    ensures var s1 := Connect(Init(now));
      var s2 := Connect(s1.st);
      && s1.out == [Delivery(now, IdAssigned(now))]
      && s2.out == [Delivery(now + 1, IdAssigned(now + 1))]
      && s2.st.connections == [Connection(now, None), Connection(now + 1, None)]
  {
  }

  /** One `username` step, read off the handler's contract. */
  lemma RenameStep(st: Relay, i: nat, name: string, final: string, counter: nat)
    requires i < |st.connections|
    requires FindByID(st.connections, st.connections[i].clientID, 0) == Some(i)
    requires ResolveUsername(NameSet(st.connections), name, st.appendToMakeUnique) == Resolved(final, counter)
    ensures var r := HandleUsername(st, UsernameMsg(st.connections[i].clientID, name));
      && r.Step?
      && r.st == Relay(st.connections[i := Connection(st.connections[i].clientID, Some(final))], st.nextID, counter)
      && r.out == (if name in NameSet(st.connections)
                   then [Delivery(st.connections[i].clientID, RejectUsername(st.connections[i].clientID, final))]
                   else []) + SendUserListToAll(r.st.connections)
  {
  }

  /** Three fresh connections. */
  lemma ThreeConnected(now: int)
    ensures Connect(Connect(Connect(Init(now)).st).st).st
         == Relay([Connection(now, None), Connection(now + 1, None), Connection(now + 2, None)], now + 3, 1)
  {
  }

  lemma FirstAlice(now: int)
    ensures var st := Relay([Connection(now, None), Connection(now + 1, None), Connection(now + 2, None)], now + 3, 1);
      HandleUsername(st, UsernameMsg(now, "alice")).st
        == Relay([Connection(now, Some("alice")), Connection(now + 1, None), Connection(now + 2, None)], now + 3, 1)
  {
    var st := Relay([Connection(now, None), Connection(now + 1, None), Connection(now + 2, None)], now + 3, 1);
    NameSetByElement(st.connections);
    assert NameSet(st.connections) == {};
    RenameStep(st, 0, "alice", "alice", 1);
  }

  lemma SecondAlice(now: int)
    ensures var st := Relay([Connection(now, Some("alice")), Connection(now + 1, None), Connection(now + 2, None)], now + 3, 1);
      HandleUsername(st, UsernameMsg(now + 1, "alice")).st
        == Relay([Connection(now, Some("alice")), Connection(now + 1, Some("alice1")), Connection(now + 2, None)], now + 3, 2)
  {
    var st := Relay([Connection(now, Some("alice")), Connection(now + 1, None), Connection(now + 2, None)], now + 3, 1);
    NameSetByElement(st.connections);
    assert NameSet(st.connections) == {"alice"};
    assert Suffixed("alice", 1) == "alice1";
    assert NextFreeSuffix({"alice"}, "alice", 1) == 1;
    assert FindByID(st.connections, now + 1, 0) == Some(1) by {
      assert FindByID(st.connections, now + 1, 1) == Some(1);
    }
    RenameStep(st, 1, "alice", "alice1", 2);
  }

  lemma ThirdAlice(now: int)
    ensures var st := Relay([Connection(now, Some("alice")), Connection(now + 1, Some("alice1")), Connection(now + 2, None)], now + 3, 2);
      HandleUsername(st, UsernameMsg(now + 2, "alice")).st
        == Relay([Connection(now, Some("alice")), Connection(now + 1, Some("alice1")), Connection(now + 2, Some("alice2"))], now + 3, 3)
  {
    var st := Relay([Connection(now, Some("alice")), Connection(now + 1, Some("alice1")), Connection(now + 2, None)], now + 3, 2);
    NameSetByElement(st.connections);
    assert NameSet(st.connections) == {"alice", "alice1"};
    assert Suffixed("alice", 2) == "alice2";
    assert NextFreeSuffix({"alice", "alice1"}, "alice", 2) == 2;
    assert FindByID(st.connections, now + 2, 0) == Some(2) by {
      assert FindByID(st.connections, now + 2, 2) == Some(2);
    }
    RenameStep(st, 2, "alice", "alice2", 3);
  }

  /** Three clients asking for "alice" in turn get alice, alice1 and alice2; the counter ends at 3. */
  lemma SuffixesGrow(now: int)
    ensures var s0 := Connect(Connect(Connect(Init(now)).st).st).st;
      var s1 := HandleUsername(s0, UsernameMsg(now, "alice"));
      var s2 := HandleUsername(s1.st, UsernameMsg(now + 1, "alice"));
      var s3 := HandleUsername(s2.st, UsernameMsg(now + 2, "alice"));
      && s3.st.connections == [Connection(now, Some("alice")), Connection(now + 1, Some("alice1")),
                               Connection(now + 2, Some("alice2"))]
      && s3.st.appendToMakeUnique == 3
  {
    ThreeConnected(now);
    FirstAlice(now);
    SecondAlice(now);
    ThirdAlice(now);
  }

  lemma CarlNamed()
    ensures var named := HandleUsername(Relay([Connection(1001, None)], 1002, 1), UsernameMsg(1001, "carl"));
      && named == Step(Relay([Connection(1001, Some("carl"))], 1002, 1), [Delivery(1001, UserList([Some("carl")]))])
  {
    var st := Relay([Connection(1001, None)], 1002, 1);
    NameSetByElement(st.connections);
    assert NameSet(st.connections) == {};
    assert FindByID(st.connections, 1001, 0) == Some(0);
    assert ResolveUsername({}, "carl", 1) == Resolved("carl", 1);
    RenameStep(st, 0, "carl", "carl", 1);
    var after := [Connection(1001, Some("carl"))];
    assert st.connections[0 := Connection(1001, Some("carl"))] == after;
    assert MakeUserListMessage(after) == UserList([Some("carl")]);
    assert SendUserListToAll(after) == [Delivery(1001, UserList([Some("carl")]))];
  }

  lemma CarlClash()
    ensures var st := Relay([Connection(1001, Some("carl")), Connection(1002, None)], 1003, 1);
      HandleUsername(st, UsernameMsg(1002, "carl"))
        == Step(Relay([Connection(1001, Some("carl")), Connection(1002, Some("carl1"))], 1003, 2),
                [Delivery(1002, RejectUsername(1002, "carl1")),
                 Delivery(1001, UserList([Some("carl"), Some("carl1")])),
                 Delivery(1002, UserList([Some("carl"), Some("carl1")]))])
  {
    var st := Relay([Connection(1001, Some("carl")), Connection(1002, None)], 1003, 1);
    NameSetByElement(st.connections);
    assert NameSet(st.connections) == {"carl"};
    assert Suffixed("carl", 1) == "carl1";
    assert NextFreeSuffix({"carl"}, "carl", 1) == 1;
    assert FindByID(st.connections, 1002, 0) == Some(1) by {
      assert FindByID(st.connections, 1002, 1) == Some(1);
    }
    assert ResolveUsername({"carl"}, "carl", 1) == Resolved("carl1", 2);
    RenameStep(st, 1, "carl", "carl1", 2);
    var after := [Connection(1001, Some("carl")), Connection(1002, Some("carl1"))];
    assert st.connections[1 := Connection(1002, Some("carl1"))] == after;
    assert MakeUserListMessage(after) == UserList([Some("carl"), Some("carl1")]);
    assert SendUserListToAll(after)
        == [Delivery(1001, UserList([Some("carl"), Some("carl1")])), Delivery(1002, UserList([Some("carl"), Some("carl1")]))];
  }

  /**
   * Peer A (id 1001) names itself carl and everyone gets ["carl"]; peer B
   * (id 1002) asks for carl too, is told it is carl1, and everyone gets
   * ["carl", "carl1"].
   */
  lemma TwoPeersNamedCarl()
    ensures var a := Connect(Init(1001));
      var named := HandleUsername(a.st, UsernameMsg(1001, "carl"));
      var b := Connect(named.st);
      var clash := HandleUsername(b.st, UsernameMsg(1002, "carl"));
      && a.out == [Delivery(1001, IdAssigned(1001))]
      && named.Step? && named.out == [Delivery(1001, UserList([Some("carl")]))]
      && b.out == [Delivery(1002, IdAssigned(1002))]
      && clash.Step? && clash.out == [Delivery(1002, RejectUsername(1002, "carl1")),
                       Delivery(1001, UserList([Some("carl"), Some("carl1")])),
                       Delivery(1002, UserList([Some("carl"), Some("carl1")]))]
  {
    assert Connect(Init(1001)).st == Relay([Connection(1001, None)], 1002, 1);
    CarlNamed();
    assert Connect(Relay([Connection(1001, Some("carl"))], 1002, 1)).st
        == Relay([Connection(1001, Some("carl")), Connection(1002, None)], 1003, 1);
    CarlClash();
  }

  /**
   * The close handler as written keeps the closed socket in the list, so
   * later broadcasts still address it; the intended handler removes it.
   */
  lemma CloseAsWrittenKeepsClosedSocket(st: Relay, i: nat)
    requires i < |st.connections|
    ensures st.connections[i] in CloseAsWritten(st, st.connections[i].clientID).st.connections
    ensures st.connections[i] !in Close(st, st.connections[i].clientID).st.connections
  {
  }

  /** After the second peer leaves, the first is alone and is sent a list with only its own name. */
  lemma CloseBroadcastsRemainingList()
    ensures var st := Relay([Connection(1001, Some("carl")), Connection(1002, Some("carl1"))], 1003, 2);
      Close(st, 1002) == Step(st.(connections := [Connection(1001, Some("carl"))]),
                              [Delivery(1001, UserList([Some("carl")]))])
  {
    var st := Relay([Connection(1001, Some("carl")), Connection(1002, Some("carl1"))], 1003, 2);
    assert RemoveConnection(st.connections, 1002) == [Connection(1001, Some("carl"))] by {
      assert st.connections[1..] == [Connection(1002, Some("carl1"))];
      assert st.connections[1..][1..] == [];
    }
    assert MakeUserListMessage([Connection(1001, Some("carl"))]) == UserList([Some("carl")]);
  }

  /** Sending to "bob" reaches bob alone; to a name nobody has, no one; with no target, everyone. */
  lemma TargetedAndBroadcast(conns: seq<Connection>, m: Msg)
    requires NamesDistinct(conns)
    requires m.target == Some("bob")
    ensures var r := Route(conns, m);
      && (forall i :: 0 <= i < |conns| && conns[i].username == Some("bob") ==> r == [Delivery(conns[i].clientID, Relayed(m))])
      && ("bob" !in NameSet(conns) ==> r == [])
      && (forall i :: 0 <= i < |conns| ==>
            Route(conns, m.(target := None))[i] == Delivery(conns[i].clientID, Relayed(m.(target := None))))
      && (forall i :: 0 <= i < |conns| ==>
            Route(conns, m.(target := Some("")))[i] == Delivery(conns[i].clientID, Relayed(m.(target := Some("")))))
  {
    forall i | 0 <= i < |conns| && conns[i].username == Some("bob")
      ensures Route(conns, m) == [Delivery(conns[i].clientID, Relayed(m))]
    {
      var k := FindByUsername(conns, "bob", 0).value;
      assert k == i;
    }
  }
}

=== FILE: decimal.dfy ===
/**
 * Decimal rendering of natural numbers, as JavaScript's number-to-string
 * conversion produces it for integers (no sign, no leading zero), and the
 * matching parser. Used for the numeric suffixes of the signaling relay's
 * usernames and for the property keys of the RPC callback table.
 */
module Decimal {
  import opened Wrappers

  predicate IsDigit(c: char) {
    '0' <= c <= '9'
  }

  function DigitChar(d: nat): (c: char)
    requires d < 10
    ensures IsDigit(c)
    ensures c as int - '0' as int == d
  {
    ('0' as int + d) as char
  }

  function DigitValue(c: char): (d: nat)
    requires IsDigit(c)
    ensures d < 10
    ensures DigitChar(d) == c
  {
    c as int - '0' as int
  }

  predicate AllDigits(s: string) {
    forall i :: 0 <= i < |s| ==> IsDigit(s[i])
  }

  /** The canonical decimal form: at least one digit, and no leading zero unless the number is 0. */
  predicate Canonical(s: string) {
    && |s| >= 1
    && AllDigits(s)
    && (s[0] == '0' ==> |s| == 1)
  }

  /** The decimal text of `n`, most significant digit first. */
  function NatToString(n: nat): (s: string)
    ensures Canonical(s)
    ensures n < 10 <==> |s| == 1
    decreases n
  {
    if n < 10 then [DigitChar(n)] else NatToString(n / 10) + [DigitChar(n % 10)]
  }

  /** The value of a non-empty run of digits (leading zeros allowed). */
  function DigitsValue(s: string): (n: nat)
    requires |s| >= 1 && AllDigits(s)
    decreases |s|
  {
    if |s| == 1 then DigitValue(s[0])
    else DigitsValue(s[..|s| - 1]) * 10 + DigitValue(s[|s| - 1])
  }

  /** Reads back a canonical decimal text; anything else is not the text of a natural number. */
  function ParseNat(s: string): (r: Option<nat>)
    ensures r.Some? <==> Canonical(s)
  {
    if Canonical(s) then Some(DigitsValue(s)) else None
  }

  lemma {:induction false} DigitsValueOfNatToString(n: nat)
    ensures DigitsValue(NatToString(n)) == n
    decreases n
  {
    if n >= 10 {
      var s := NatToString(n);
      assert s[..|s| - 1] == NatToString(n / 10);
      DigitsValueOfNatToString(n / 10);
    }
  }

  /** Parsing undoes rendering. */
  lemma ParseNatToString(n: nat)
    ensures ParseNat(NatToString(n)) == Some(n)
  {
    DigitsValueOfNatToString(n);
  }

  /** Rendering undoes parsing: a canonical text is the rendering of its value. */
  lemma {:induction false} NatToStringOfParse(s: string)
    requires Canonical(s)
    ensures NatToString(DigitsValue(s)) == s
    decreases |s|
  {
    if |s| > 1 {
      var p := s[..|s| - 1];
      assert Canonical(p);
      NatToStringOfParse(p);
      var v := DigitsValue(p);
      assert v >= 1;
      var n := DigitsValue(s);
      assert n / 10 == v && n % 10 == DigitValue(s[|s| - 1]);
      assert NatToString(n) == NatToString(v) + [s[|s| - 1]];
    }
  }

  /** Distinct numbers have distinct decimal texts. */
  lemma NatToStringInjective(m: nat, n: nat)
    ensures NatToString(m) == NatToString(n) <==> m == n
  {
    DigitsValueOfNatToString(m);
    DigitsValueOfNatToString(n);
  }
}

=== FILE: iframe_rpc.dfy ===
/**
 * The iframe RPC protocol of hf-demo/iframe-rpc.js: a registry of named
 * channels, a per-channel table of action handlers, a correlator that tags
 * outgoing calls with callback ids, and the dispatcher for incoming
 * envelopes.
 *
 * Handlers and callbacks are JavaScript functions; here they are opaque
 * references of the type parameter `H`, and invoking one is recorded as an
 * event. Sending is `postMessage` to the channel's target window: an
 * operation returns the message it would post instead of posting it.
 * A JavaScript exception is an outcome that carries the state as it was
 * mutated before the throw.
 */
module IframeRpc {
  import opened Wrappers
  import opened Values
  import Decimal

  /** The reserved action name of a reply envelope. */
  const CALLBACK_ACTION: string := "__CALLBACK__"

  /** An opaque reference to a window that can be posted to. */
  type WindowRef = nat

  /** An `IframeChannel`: its name, the origin it posts with, and the window it posts to, if set. */
  datatype Channel = Channel(name: string, origin: Option<string>, target: Option<WindowRef>)

  /** An entry of `_callbacks`. */
  datatype Pending<H> = Pending(callback: H, keepListen: bool)

  /**
   * The state of one `IframeRpc` object. An action slot holding `None` is a
   * falsy listener stored by `setActions`; it dispatches like a missing one.
   */
  datatype Rpc<H> = Rpc(
    channels: map<string, Channel>,
    actions: map<string, map<string, Option<H>>>,
    callbacks: map<nat, Pending<H>>,
    callbackId: nat)

  /** A literal callback id, as a reply envelope carries it back. */
  datatype CallbackId = IdNum(n: int) | IdStr(s: string)

  /** The `callback` argument of `call`: absent, a function to correlate, or a literal id to forward. */
  datatype CallbackArg<H> = NoCallback | Function(fn: H) | Literal(id: CallbackId)

  /** The wire envelope; `callback` is `None` when the field is not set. */
  datatype Envelope = Envelope(channel: string, action: string, data: Value, callback: Option<CallbackId>)

  /** One `postMessage(envelope, origin)` to `target`. */
  datatype Post = Post(target: WindowRef, origin: Option<string>, envelope: Envelope)

  /** What reaches `_recv` as `e.data`: a non-object, `null`, or an object whose fields are read. */
  datatype Incoming =
    | NotAnObject
    | NullData
    | Message(channel: Option<string>, action: Option<string>, callback: Option<CallbackId>, data: Value)

  /** The `reply` continuation handed to a handler: where the reply goes and which id it carries. */
  datatype ReplyTo = ReplyTo(channel: string, callback: Option<CallbackId>)

  /** What `_recv` does, besides changing state. */
  datatype Event<H> =
    | CallbackInvoked(callback: H, error: Value, data: Value)
    | ActionInvoked(handler: H, params: Value, reply: ReplyTo)
    | NoActionLogged(channel: string, action: string)

  /** The exceptions the source raises, each a `TypeError` on an `undefined` or `null` value. */
  datatype RpcError =
    | NoChannel       // `channel.target` read on an unregistered channel
    | NoWindow        // `this.target.postMessage` with no target window
    | NullEnvelope    // destructuring `e.data` when it is `null`
    | NoActionsField  // `channel.actions[actionName]` on a registered channel

  datatype CallOutcome<H> = Sent(st: Rpc<H>, post: Post) | Threw(error: RpcError, st: Rpc<H>)

  datatype RecvOutcome<H> = Received(st: Rpc<H>, events: seq<Event<H>>) | RecvThrew(error: RpcError, st: Rpc<H>)

  /** The invariant every reachable state keeps. */
  ghost predicate Valid<H>(st: Rpc<H>) {
    && st.channels.Keys == st.actions.Keys
    && (forall name :: name in st.channels ==> st.channels[name].name == name)
    && (forall id :: id in st.callbacks ==> 1 <= id <= st.callbackId)
  }

  predicate CallbackTruthy(id: CallbackId) {
    match id
    case IdNum(n) => n != 0
    case IdStr(s) => s != ""
  }

  /**
   * The `_callbacks` entry a received id addresses. Object keys are strings,
   * so the number `n` and the text of `n` name the same entry; `undefined`,
   * negative numbers and non-canonical texts name no entry the correlator
   * can have stored.
   */
  function PendingKey(id: Option<CallbackId>): (k: Option<nat>)
    ensures forall n: nat :: id == Some(IdNum(n)) ==> k == Some(n)
    ensures forall n: nat :: id == Some(IdStr(Decimal.NatToString(n))) ==> k == Some(n)
    ensures k.Some? ==> id == Some(IdNum(k.value)) || id == Some(IdStr(Decimal.NatToString(k.value)))
  {
    match id
    case None => None
    case Some(IdNum(n)) => if n >= 0 then Some(n) else None
    case Some(IdStr(s)) =>
      var k := Decimal.ParseNat(s);
      assert k.Some? ==> Decimal.NatToString(k.value) == s by {
        if k.Some? {
          Decimal.NatToStringOfParse(s);
        }
      }
      assert forall n: nat :: s == Decimal.NatToString(n) ==> k == Some(n) by {
        forall n: nat | s == Decimal.NatToString(n) {
          Decimal.ParseNatToString(n);
        }
      }
      k
  }

  /** The handler `_recv` would run for a channel and action, if any. */
  function HandlerFor<H>(st: Rpc<H>, channelName: string, actionName: string): Option<H> {
    if channelName in st.channels && channelName in st.actions && actionName in st.actions[channelName]
    then st.actions[channelName][actionName]
    else None
  }

  /** `new IframeRpc(channel)`: empty tables, counter at 0, and the channel registered if one is given. */
  function NewRpc<H>(channel: Option<Channel>): (r: Rpc<H>)
    ensures Valid(r)
    ensures r.callbackId == 0 && r.callbacks == map[]
    ensures forall name :: name in r.channels <==> channel.Some? && name == channel.value.name
    ensures channel.Some? ==> channel.value.name in r.channels && r.channels[channel.value.name] == channel.value
    ensures forall name, action :: HandlerFor(r, name, action).None?
  {
    var empty := Rpc(map[], map[], map[], 0);
    if channel.Some? then AddChannel(empty, channel.value) else empty
  }

  /** `addChannel`: the channel is stored under its name and that name's action table starts empty. */
  function AddChannel<H>(st: Rpc<H>, channel: Channel): (r: Rpc<H>)
    ensures GetChannelByName(r, channel.name) == Some(channel)
    ensures channel.name in r.actions && r.actions[channel.name] == map[]
    ensures forall name :: name != channel.name ==>
      && GetChannelByName(r, name) == GetChannelByName(st, name)
      && (name in r.actions <==> name in st.actions)
      && (name in st.actions ==> r.actions[name] == st.actions[name])
    ensures r.callbacks == st.callbacks && r.callbackId == st.callbackId
    ensures Valid(st) ==> Valid(r)
  {
    st.(actions := st.actions[channel.name := map[]], channels := st.channels[channel.name := channel])
  }

  /** `getChannelByName`: the channel registered under the name, if there is one. */
  function GetChannelByName<H>(st: Rpc<H>, channelName: string): (r: Option<Channel>)
    ensures r.Some? <==> channelName in st.channels
    ensures r.Some? ==> r.value == st.channels[channelName]
  {
    if channelName in st.channels then Some(st.channels[channelName]) else None
  }

  /**
   * `setAction`: on a registered channel a truthy listener installs or
   * replaces one entry and a falsy one deletes it; nothing else changes. An
   * unknown channel is only logged.
   */
  function SetAction<H>(st: Rpc<H>, channelName: string, actionName: string, listener: Option<H>): (r: Rpc<H>)
    ensures channelName !in st.actions ==> r == st
    ensures r.channels == st.channels && r.callbacks == st.callbacks && r.callbackId == st.callbackId
    ensures r.actions.Keys == st.actions.Keys
    ensures forall c :: c in st.actions && c != channelName ==> r.actions[c] == st.actions[c]
    ensures channelName in st.actions ==>
      && (listener.Some? ==> actionName in r.actions[channelName] && r.actions[channelName][actionName] == listener)
      && (listener.None? ==> actionName !in r.actions[channelName])
      && (forall a :: a != actionName ==>
            && (a in r.actions[channelName] <==> a in st.actions[channelName])
            && (a in st.actions[channelName] ==> r.actions[channelName][a] == st.actions[channelName][a]))
    ensures Valid(st) ==> Valid(r)
  {
    if channelName !in st.actions then st
    else
      var table := st.actions[channelName];
      var table' := if listener.Some? then table[actionName := listener] else table - {actionName};
      st.(actions := st.actions[channelName := table'])
  }

  /**
   * `setActions`: `Object.assign` of the given listeners into a registered
   * channel's table. Listed names are overwritten, falsy values included;
   * unlisted names keep their entries. An unknown channel is only logged.
   */
  function SetActions<H>(st: Rpc<H>, channelName: string, listeners: map<string, Option<H>>): (r: Rpc<H>)
    ensures channelName !in st.actions ==> r == st
    ensures r.channels == st.channels && r.callbacks == st.callbacks && r.callbackId == st.callbackId
    ensures r.actions.Keys == st.actions.Keys
    ensures forall c :: c in st.actions && c != channelName ==> r.actions[c] == st.actions[c]
    ensures channelName in st.actions ==>
      && r.actions[channelName].Keys == st.actions[channelName].Keys + listeners.Keys
      && (forall a :: a in listeners ==> r.actions[channelName][a] == listeners[a])
      && (forall a :: a in st.actions[channelName] && a !in listeners ==>
            r.actions[channelName][a] == st.actions[channelName][a])
    ensures Valid(st) ==> Valid(r)
  {
    if channelName !in st.actions then st
    else st.(actions := st.actions[channelName := st.actions[channelName] + listeners])
  }

  /**
   * `call`. An unregistered channel throws before anything changes. A
   * function callback takes the id `++_callbackId` and is stored as pending;
   * a truthy literal id is copied into the envelope as it is; a falsy one, or
   * none, leaves the field unset. A channel without a target window logs,
   * still allocates the callback id, and then throws when posting.
   */
  function Call<H>(st: Rpc<H>, channelName: string, actionName: string, data: Value,
                   callback: CallbackArg<H>, keepListen: bool): (r: CallOutcome<H>)
    ensures channelName !in st.channels <==> r == Threw(NoChannel, st)
    ensures channelName in st.channels ==>
      (r.Sent? <==> st.channels[channelName].target.Some?)
    ensures r.Threw? && channelName in st.channels ==> r.error == NoWindow
    ensures r.Sent? ==>
      && r.post.target == st.channels[channelName].target.value
      && r.post.origin == st.channels[channelName].origin
      && r.post.envelope.channel == channelName
      && r.post.envelope.action == actionName
      && r.post.envelope.data == data
    ensures r.st.channels == st.channels && r.st.actions == st.actions
    ensures callback.Function? && channelName in st.channels ==>
      && r.st.callbackId == st.callbackId + 1
      && (Valid(st) ==> st.callbackId + 1 !in st.callbacks)
      && r.st.callbacks == st.callbacks[st.callbackId + 1 := Pending(callback.fn, keepListen)]
      && (r.Sent? ==> r.post.envelope.callback == Some(IdNum(r.st.callbackId)))
    ensures !callback.Function? || channelName !in st.channels ==> r.st == st
    ensures r.Sent? && callback.Literal? ==>
      r.post.envelope.callback == (if CallbackTruthy(callback.id) then Some(callback.id) else None)
    ensures r.Sent? && callback.NoCallback? ==> r.post.envelope.callback == None
    ensures Valid(st) ==> Valid(r.st)
  {
    if channelName !in st.channels then Threw(NoChannel, st)
    else
      var channel := st.channels[channelName];
      var (st', field) :=
        match callback
        case Function(fn) =>
          var id := st.callbackId + 1;
          (st.(callbacks := st.callbacks[id := Pending(fn, keepListen)], callbackId := id), Some(IdNum(id)))
        case Literal(id) => (st, if CallbackTruthy(id) then Some(id) else None)
        case NoCallback => (st, None);
      if channel.target.None? then Threw(NoWindow, st')
      else Sent(st', Post(channel.target.value, channel.origin, Envelope(channelName, actionName, data, field)))
  }

  /** Resolving a callback envelope: run the pending entry once and drop it unless it keeps listening. */
  function Resolve<H>(st: Rpc<H>, callbackId: Option<CallbackId>, params: Value): (r: RecvOutcome<H>)
    ensures r.Received?
    ensures r.st.channels == st.channels && r.st.actions == st.actions && r.st.callbackId == st.callbackId
    ensures var key := PendingKey(callbackId);
      if key.Some? && key.value in st.callbacks then
        var entry := st.callbacks[key.value];
        && r.events == [CallbackInvoked(entry.callback, Field(params, "error"), Field(params, "data"))]
        && r.st.callbacks == (if entry.keepListen then st.callbacks else st.callbacks - {key.value})
      else r == Received(st, [])
  {
    var key := PendingKey(callbackId);
    if key.Some? && key.value in st.callbacks then
      var entry := st.callbacks[key.value];
      var st' := if entry.keepListen then st else st.(callbacks := st.callbacks - {key.value});
      Received(st', [CallbackInvoked(entry.callback, Field(params, "error"), Field(params, "data"))])
    else Received(st, [])
  }

  /**
   * Dispatching a call envelope. The source reads the handler from
   * `channel.actions[actionName]` (iframe-rpc.js:121), a field no
   * `IframeChannel` has, while `setAction` and `setActions` store handlers in
   * `_actions[channelName]`; this reads `_actions`, see `RecvAsWritten`.
   */
  function Dispatch<H>(st: Rpc<H>, channelName: string, actionName: string,
                       callbackId: Option<CallbackId>, params: Value): (r: RecvOutcome<H>)
    ensures r.Received? && r.st == st && |r.events| == 1
    ensures r.events[0].ActionInvoked? <==> HandlerFor(st, channelName, actionName).Some?
    ensures r.events[0].ActionInvoked? ==>
      r.events[0] == ActionInvoked(HandlerFor(st, channelName, actionName).value, params, ReplyTo(channelName, callbackId))
    ensures !r.events[0].ActionInvoked? ==> r.events[0] == NoActionLogged(channelName, actionName)
  {
    match HandlerFor(st, channelName, actionName)
    case Some(h) => Received(st, [ActionInvoked(h, params, ReplyTo(channelName, callbackId))])
    case None => Received(st, [NoActionLogged(channelName, actionName)])
  }

  /**
   * `_recv`. Non-objects are ignored; a `null` payload throws on
   * destructuring. A callback envelope only ever resolves a pending entry;
   * any other envelope with a channel and an action dispatches.
   */
  function Recv<H>(st: Rpc<H>, m: Incoming): (r: RecvOutcome<H>)
    ensures m.NotAnObject? ==> r == Received(st, [])
    ensures r.RecvThrew? <==> m.NullData?
    ensures r.Received? ==> |r.events| <= 1
    ensures r.st.channels == st.channels && r.st.actions == st.actions && r.st.callbackId == st.callbackId
    ensures r.st.callbacks.Keys <= st.callbacks.Keys
    ensures r.Received? && m.Message? && m.action == Some(CALLBACK_ACTION) ==>
      forall e :: e in r.events ==> e.CallbackInvoked?
    ensures r.Received? && !(m.Message? && m.action == Some(CALLBACK_ACTION)) ==>
      r.st == st && forall e :: e in r.events ==> !e.CallbackInvoked?
    ensures Valid(st) ==> Valid(r.st)
  {
    match m
    case NotAnObject => Received(st, [])
    case NullData => RecvThrew(NullEnvelope, st)
    case Message(channelName, actionName, callbackId, params) =>
      if actionName == Some(CALLBACK_ACTION) then Resolve(st, callbackId, params)
      else if channelName.Some? && channelName.value != "" && actionName.Some? && actionName.value != "" then
        Dispatch(st, channelName.value, actionName.value, callbackId, params)
      else Received(st, [])
  }

  /**
   * `_recv` as the source is written: on a registered channel the dispatch
   * branch reads `actions` of a channel object that has no such field, and
   * throws.
   */
  function RecvAsWritten<H>(st: Rpc<H>, m: Incoming): (r: RecvOutcome<H>)
    ensures forall e :: r.Received? && e in r.events ==> !e.ActionInvoked?
  {
    if m.Message? && m.action != Some(CALLBACK_ACTION)
       && m.channel.Some? && m.channel.value != "" && m.action.Some? && m.action.value != ""
       && m.channel.value in st.channels
    then RecvThrew(NoActionsField, st)
    else Recv(st, m)
  }

  /**
   * The `reply(err, val)` continuation given to a handler: when the original
   * envelope carried a truthy callback id, a callback envelope with
   * `{error: err, data: val}` goes back on the same channel carrying that id.
   */
  function Reply<H>(st: Rpc<H>, to: ReplyTo, err: Value, val: Value): (r: Option<CallOutcome<H>>)
    ensures r.Some? <==> to.callback.Some? && CallbackTruthy(to.callback.value)
    ensures r.Some? ==> r.value.st == st
    ensures r.Some? ==> (r.value.Sent? <==> to.channel in st.channels && st.channels[to.channel].target.Some?)
    ensures r.Some? && r.value.Sent? ==>
      r.value.post.envelope == Envelope(to.channel, CALLBACK_ACTION, Obj(map["error" := err, "data" := val]), to.callback)
  {
    if to.callback.Some? && CallbackTruthy(to.callback.value) then
      Some(Call(st, to.channel, CALLBACK_ACTION, Obj(map["error" := err, "data" := val]), Literal(to.callback.value), false))
    else None
  }

  /** What the receiving window sees of a posted envelope (a structured clone). */
  function Deliver(env: Envelope): Incoming {
    Message(Some(env.channel), Some(env.action), env.callback, env.data)
  }

  // ---- The IframeChannel facade ----

  /**
   * `new IframeChannel({name, origin, target}, rpc)`: registers the channel
   * with the given RPC object, or with a fresh one when none is given.
   */
  function NewChannel<H>(rpc: Option<Rpc<H>>, name: string, origin: Option<string>, target: Option<WindowRef>): (r: Rpc<H>)
    ensures GetChannelByName(r, name) == Some(Channel(name, origin, target))
    ensures forall action :: HandlerFor(r, name, action).None?
    ensures rpc.None? ==> r.callbacks == map[] && r.callbackId == 0 && r.channels.Keys == {name}
    ensures rpc.Some? ==> r.callbacks == rpc.value.callbacks && r.callbackId == rpc.value.callbackId
    ensures rpc.Some? ==> forall c, a :: c != name ==>
      GetChannelByName(r, c) == GetChannelByName(rpc.value, c) && HandlerFor(r, c, a) == HandlerFor(rpc.value, c, a)
    ensures rpc.Some? && Valid(rpc.value) ==> Valid(r)
    ensures rpc.None? ==> Valid(r)
  {
    AddChannel(rpc.GetOr(NewRpc(None)), Channel(name, origin, target))
  }

  /** `IframeChannel.call(action, params, callback)`: a call on this channel that never keeps listening. */
  function ChannelCall<H>(st: Rpc<H>, name: string, action: string, params: Value, callback: CallbackArg<H>): (r: CallOutcome<H>)
    ensures name !in st.channels <==> r == Threw(NoChannel, st)
    ensures r.Sent? <==> name in st.channels && st.channels[name].target.Some?
    ensures forall id :: id in r.st.callbacks && id !in st.callbacks ==> !r.st.callbacks[id].keepListen
    ensures r.Sent? ==>
      && r.post.target == st.channels[name].target.value
      && r.post.origin == st.channels[name].origin
      && r.post.envelope.channel == name && r.post.envelope.action == action && r.post.envelope.data == params
    ensures callback.Function? && name in st.channels ==>
      && r.st.callbackId == st.callbackId + 1
      && r.st.callbacks == st.callbacks[st.callbackId + 1 := Pending(callback.fn, false)]
      && (r.Sent? ==> r.post.envelope.callback == Some(IdNum(r.st.callbackId)))
    ensures !callback.Function? || name !in st.channels ==> r.st == st
    ensures r.st.channels == st.channels && r.st.actions == st.actions
    ensures Valid(st) ==> Valid(r.st)
  {
    Call(st, name, action, params, callback, false)
  }

  /** `IframeChannel.on(action, listener)`: sets or removes the listener on this channel. */
  function On<H>(st: Rpc<H>, name: string, action: string, listener: Option<H>): (r: Rpc<H>)
    ensures name in st.channels && name in st.actions ==> HandlerFor(r, name, action) == listener
    ensures forall c, a :: c != name || a != action ==> HandlerFor(r, c, a) == HandlerFor(st, c, a)
    ensures r.channels == st.channels && r.callbacks == st.callbacks && r.callbackId == st.callbackId
    ensures Valid(st) && name !in st.channels ==> r == st
    ensures Valid(st) ==> Valid(r)
  {
    SetAction(st, name, action, listener)
  }

  /** `setTarget` (and `setFrame`, which sets the frame's window): later calls post to this window. */
  function SetTarget<H>(st: Rpc<H>, name: string, target: WindowRef): (r: Rpc<H>)
    ensures name in st.channels ==> GetChannelByName(r, name) == Some(st.channels[name].(target := Some(target)))
    ensures name !in st.channels ==> r == st
    ensures r.channels.Keys == st.channels.Keys
    ensures forall c :: c in st.channels && c != name ==> r.channels[c] == st.channels[c]
    ensures r.actions == st.actions && r.callbacks == st.callbacks && r.callbackId == st.callbackId
    ensures Valid(st) ==> Valid(r)
  {
    if name in st.channels then st.(channels := st.channels[name := st.channels[name].(target := Some(target))]) else st
  }

  /** `setOrigin`: later calls post with this origin. */
  function SetOrigin<H>(st: Rpc<H>, name: string, origin: string): (r: Rpc<H>)
    ensures name in st.channels ==> GetChannelByName(r, name) == Some(st.channels[name].(origin := Some(origin)))
    ensures name !in st.channels ==> r == st
    ensures r.channels.Keys == st.channels.Keys
    ensures forall c :: c in st.channels && c != name ==> r.channels[c] == st.channels[c]
    ensures r.actions == st.actions && r.callbacks == st.callbacks && r.callbackId == st.callbackId
    ensures Valid(st) ==> Valid(r)
  {
    if name in st.channels then st.(channels := st.channels[name := st.channels[name].(origin := Some(origin))]) else st
  }
}

=== FILE: iframe_rpc_properties.dfy ===
/**
 * Properties of the iframe RPC protocol that relate several operations:
 * callback ids over a sequence of calls, the lifetime of a pending callback,
 * and the full call / dispatch / reply / resolve exchange between two
 * windows.
 */
module IframeRpcProperties {
  import opened Wrappers
  import opened Values
  import opened IframeRpc

  /** The first function callback of a fresh RPC object gets id 1 and is stored as pending. */
  lemma FirstCallbackIdIsOne<H>(channel: Channel, actionName: string, data: Value, fn: H, keepListen: bool)
    requires channel.target.Some?
    ensures var r := Call(NewRpc<H>(Some(channel)), channel.name, actionName, data, Function(fn), keepListen);
      && r.Sent?
      && r.post.envelope.callback == Some(IdNum(1))
      && r.st.callbacks == map[1 := Pending(fn, keepListen)]
  {
  }

  /**
   * Two function callbacks in a row get strictly increasing ids, and each new
   * id is larger than every id still pending, so none is ever reused.
   */
  lemma CallbackIdsIncrease<H>(st: Rpc<H>, channel1: string, action1: string, data1: Value, fn1: H, keep1: bool,
                               channel2: string, action2: string, data2: Value, fn2: H, keep2: bool)
    requires Valid(st)
    requires channel1 in st.channels && channel2 in st.channels
    ensures var r1 := Call(st, channel1, action1, data1, Function(fn1), keep1);
      var r2 := Call(r1.st, channel2, action2, data2, Function(fn2), keep2);
      && st.callbackId < r1.st.callbackId < r2.st.callbackId
      && (forall id :: id in st.callbacks ==> id < r1.st.callbackId)
      && (forall id :: id in r1.st.callbacks ==> id < r2.st.callbackId)
      && r2.st.callbacks[r1.st.callbackId] == Pending(fn1, keep1)
      && r2.st.callbacks[r2.st.callbackId] == Pending(fn2, keep2)
  {
  }

  /** A literal id, truthy or not, changes no table and allocates nothing. */
  lemma LiteralIdAllocatesNothing<H>(st: Rpc<H>, channelName: string, actionName: string, data: Value, id: CallbackId)
    ensures Call(st, channelName, actionName, data, Literal(id), false).st == st
    ensures Call(st, channelName, actionName, data, Literal(id), true).st == st
  {
  }

  /** A reply envelope that addresses a given pending id. */
  ghost predicate RepliesTo(m: Incoming, id: nat) {
    m.Message? && m.action == Some(CALLBACK_ACTION) && PendingKey(m.callback) == Some(id)
  }

  /**
   * A one-shot callback runs once with the reply's `error` and `data` and is
   * removed; a repeated reply to the same id does nothing.
   */
  lemma OneShotCallbackRunsOnce<H>(st: Rpc<H>, id: nat, m: Incoming)
    requires id in st.callbacks && !st.callbacks[id].keepListen
    requires RepliesTo(m, id)
    ensures var first := Recv(st, m);
      && first.Received?
      && first.events == [CallbackInvoked(st.callbacks[id].callback, Field(m.data, "error"), Field(m.data, "data"))]
      && id !in first.st.callbacks
      && first.st.callbacks == st.callbacks - {id}
      && Recv(first.st, m) == Received(first.st, [])
  {
  }

  /** A keep-listening callback runs on every reply and stays pending. */
  lemma KeepListenRunsEveryTime<H>(st: Rpc<H>, id: nat, m: Incoming)
    requires id in st.callbacks && st.callbacks[id].keepListen
    requires RepliesTo(m, id)
    ensures var first := Recv(st, m);
      && first == Received(st, [CallbackInvoked(st.callbacks[id].callback, Field(m.data, "error"), Field(m.data, "data"))])
      && Recv(first.st, m) == first
  {
  }

  /** A reply for an id nobody is waiting for is ignored. */
  lemma UnknownReplyIgnored<H>(st: Rpc<H>, m: Incoming)
    requires m.Message? && m.action == Some(CALLBACK_ACTION)
    requires PendingKey(m.callback).None? || PendingKey(m.callback).value !in st.callbacks
    ensures Recv(st, m) == Received(st, [])
  {
  }

  /**
   * The whole exchange: a call with a function callback reaches the callee's
   * handler with the caller's params; the handler's `reply(err, val)` comes
   * back as a callback envelope; the caller's callback then receives exactly
   * `(err, val)`. Afterwards a one-shot caller is back where it started except
   * for the advanced counter.
   */
  lemma CallReplyRoundTrip<H>(caller: Rpc<H>, callee: Rpc<H>, channelName: string, actionName: string,
                              params: Value, fn: H, keepListen: bool, handler: H, err: Value, val: Value)
    requires Valid(caller)
    requires channelName in caller.channels && caller.channels[channelName].target.Some?
    requires channelName in callee.channels && callee.channels[channelName].target.Some?
    requires HandlerFor(callee, channelName, actionName) == Some(handler)
    requires channelName != "" && actionName != "" && actionName != CALLBACK_ACTION
    ensures var call := Call(caller, channelName, actionName, params, Function(fn), keepListen);
      && call.Sent?
      && var dispatched := Recv(callee, Deliver(call.post.envelope));
        && dispatched == Received(callee, [ActionInvoked(handler, params, ReplyTo(channelName, Some(IdNum(call.st.callbackId))))])
        && var reply := Reply(callee, dispatched.events[0].reply, err, val);
          && reply.Some? && reply.value.Sent?
          && var resolved := Recv(call.st, Deliver(reply.value.post.envelope));
            && resolved.Received?
            && resolved.events == [CallbackInvoked(fn, err, val)]
            && resolved.st == (if keepListen then call.st else caller.(callbackId := caller.callbackId + 1))
  {
    var call := Call(caller, channelName, actionName, params, Function(fn), keepListen);
    var id := caller.callbackId + 1;
    assert id !in caller.callbacks;
    assert call.st.callbacks - {id} == caller.callbacks;
  }

  /** Without a callback the handler still runs, but its `reply` sends nothing. */
  lemma FireAndForgetHasNoReply<H>(caller: Rpc<H>, callee: Rpc<H>, channelName: string, actionName: string,
                                   params: Value, handler: H, err: Value, val: Value)
    requires channelName in caller.channels && caller.channels[channelName].target.Some?
    requires HandlerFor(callee, channelName, actionName) == Some(handler)
    requires channelName != "" && actionName != "" && actionName != CALLBACK_ACTION
    ensures var call := Call(caller, channelName, actionName, params, NoCallback, false);
      && call.Sent? && call.st == caller
      && var dispatched := Recv(callee, Deliver(call.post.envelope));
        && dispatched == Received(callee, [ActionInvoked(handler, params, ReplyTo(channelName, None))])
        && Reply(callee, dispatched.events[0].reply, err, val).None?
  {
  }

  /** An envelope for an action nobody registered is logged and runs nothing. */
  lemma UnknownActionLogged<H>(st: Rpc<H>, channelName: string, actionName: string, callbackId: Option<CallbackId>, params: Value)
    requires HandlerFor(st, channelName, actionName).None?
    requires channelName != "" && actionName != "" && actionName != CALLBACK_ACTION
    ensures Recv(st, Message(Some(channelName), Some(actionName), callbackId, params))
         == Received(st, [NoActionLogged(channelName, actionName)])
  {
  }

  /**
   * As written, the dispatcher never reaches a registered handler: for any
   * handler installed with `setAction`, the source throws where the intended
   * dispatcher runs it.
   */
  lemma AsWrittenDispatchThrows<H>(st: Rpc<H>, channelName: string, actionName: string, handler: H,
                                   callbackId: Option<CallbackId>, params: Value)
    requires HandlerFor(st, channelName, actionName) == Some(handler)
    requires channelName != "" && actionName != "" && actionName != CALLBACK_ACTION
    ensures var m := Message(Some(channelName), Some(actionName), callbackId, params);
      && RecvAsWritten(st, m) == RecvThrew(NoActionsField, st)
      && Recv(st, m) == Received(st, [ActionInvoked(handler, params, ReplyTo(channelName, callbackId))])
  {
  }

  /** A concrete instance: the `mute` handler a page installs on the `webrtc` channel. */
  lemma AsWrittenMuteIsNeverHandled()
    ensures var st := On(NewChannel<nat>(None, "webrtc", Some("*"), None), "webrtc", "mute", Some(7));
      var m := Message(Some("webrtc"), Some("mute"), None, Obj(map["mute" := Bool(true)]));
      && RecvAsWritten(st, m).RecvThrew?
      && Recv(st, m) == Received(st, [ActionInvoked(7, Obj(map["mute" := Bool(true)]), ReplyTo("webrtc", None))])
  {
    var st := On(NewChannel<nat>(None, "webrtc", Some("*"), None), "webrtc", "mute", Some(7));
    assert HandlerFor(st, "webrtc", "mute") == Some(7);
  }
}

=== FILE: query_string.dfy ===
/**
 * `getParamByName` of zego-video-talk/main.js: reading one parameter from
 * `location.search`, which is a parameter here. The leading character is
 * dropped, the rest is split on `&`, each item on `=`, and the items are
 * stored into an object in order, so the last item with a key wins.
 */
module QueryString {

  /** What the lookup returns: `null`, `undefined`, or a string. */
  datatype Lookup = Null | Undefined | Found(value: string)

  /** Rejoins pieces with the separator between them. */
  function Join(parts: seq<string>, sep: char): string
    requires |parts| >= 1
    decreases |parts|
  {
    if |parts| == 1 then parts[0] else parts[0] + [sep] + Join(parts[1..], sep)
  }

  /**
   * `s.split(sep)` for a one-character separator: the maximal pieces without
   * `sep`, in order, the empty text giving one empty piece.
   */
  function Split(s: string, sep: char): (parts: seq<string>)
    ensures |parts| >= 1
    ensures forall i :: 0 <= i < |parts| ==> sep !in parts[i]
    ensures forall i, c :: 0 <= i < |parts| && c in parts[i] ==> c in s
    ensures Join(parts, sep) == s
    decreases |s|
  {
    if |s| == 0 then [""]
    else
      var rest := Split(s[1..], sep);
      if s[0] == sep then
        var parts := [""] + rest;
        assert Join(parts, sep) == [sep] + Join(rest, sep) by {
          assert parts[1..] == rest;
        }
        assert forall i, c :: 0 <= i < |parts| && c in parts[i] ==> c in s by {
          forall i, c | 0 <= i < |parts| && c in parts[i] ensures c in s {
            assert i > 0 && parts[i] == rest[i - 1];
            assert c in s[1..];
          }
        }
        parts
      else
        var parts := [[s[0]] + rest[0]] + rest[1..];
        assert Join(parts, sep) == [s[0]] + Join(rest, sep) by {
          if |rest| > 1 {
            assert parts[1..] == rest[1..];
          }
        }
        assert forall i, c :: 0 <= i < |parts| && c in parts[i] ==> c in s by {
          forall i, c | 0 <= i < |parts| && c in parts[i] ensures c in s {
            if i == 0 {
              if c != s[0] {
                assert c in rest[0];
                assert c in s[1..];
              }
            } else {
              assert parts[i] == rest[i];
              assert c in s[1..];
            }
          }
        }
        parts
  }

  /** Splitting undoes joining pieces that do not contain the separator. */
  lemma {:induction false} SplitJoin(parts: seq<string>, sep: char)
    requires |parts| >= 1
    requires forall i :: 0 <= i < |parts| ==> sep !in parts[i]
    ensures Split(Join(parts, sep), sep) == parts
    decreases |parts|, |parts[0]|
  {
    var s := Join(parts, sep);
    if |parts[0]| == 0 {
      if |parts| > 1 {
        assert s == [sep] + Join(parts[1..], sep);
        assert s[1..] == Join(parts[1..], sep);
        SplitJoin(parts[1..], sep);
      }
    } else {
      var c := parts[0][0];
      var shorter := [parts[0][1..]] + parts[1..];
      assert shorter[1..] == parts[1..];
      assert Join(shorter, sep) == s[1..] by {
        if |parts| > 1 {
          assert s == parts[0] + [sep] + Join(parts[1..], sep);
        }
      }
      assert c in parts[0];
      SplitJoin(shorter, sep);
      assert [[c] + shorter[0]] + shorter[1..] == parts by {
        assert [c] + parts[0][1..] == parts[0];
      }
    }
  }

  /** The first piece begins the joined text and is followed by the end or a separator. */
  lemma JoinStartsWithFirst(parts: seq<string>, sep: char)
    requires |parts| >= 1
    ensures parts[0] <= Join(parts, sep)
    ensures |parts[0]| == |Join(parts, sep)| || Join(parts, sep)[|parts[0]|] == sep
  {
    if |parts| > 1 {
      var j := Join(parts, sep);
      assert j == parts[0] + ([sep] + Join(parts[1..], sep));
      assert j[..|parts[0]|] == parts[0];
    }
  }

  /**
   * The first two pieces, with the separator between them, begin the joined
   * text; whatever follows starts with another separator.
   */
  lemma JoinFirstTwo(parts: seq<string>, sep: char)
    requires |parts| >= 2
    ensures var j := Join(parts, sep);
      var n := |parts[0]| + 1 + |parts[1]|;
      && n <= |j|
      && j[..n] == parts[0] + [sep] + parts[1]
      && (n < |j| ==> j[n] == sep)
  {
    var j := Join(parts, sep);
    var tail := Join(parts[1..], sep);
    assert j == parts[0] + [sep] + tail;
    assert parts[1..][0] == parts[1];
    if |parts| > 2 {
      assert tail == parts[1] + [sep] + Join(parts[1..][1..], sep);
    } else {
      assert tail == parts[1];
    }
  }

  /** The key of an item: the text before the first `=`, or all of it. */
  function EntryKey(item: string): (k: string)
    ensures '=' !in k && k <= item
    ensures |k| == |item| || item[|k|] == '='
  {
    var entry := Split(item, '=');
    JoinStartsWithFirst(entry, '=');
    entry[0]
  }

  /**
   * The value of an item: the text between the first and second `=`, or
   * `undefined` without `=`.
   */
  function EntryValue(item: string): (r: Lookup)
    ensures r != Null
    ensures r.Found? ==> '=' !in r.value && forall c :: c in r.value ==> c in item
    ensures r.Undefined? <==> '=' !in item
    ensures r.Found? ==>
      var n := |EntryKey(item)| + 1 + |r.value|;
      && n <= |item|
      && item[..n] == EntryKey(item) + "=" + r.value
      && (n < |item| ==> item[n] == '=')
  {
    var entry := Split(item, '=');
    if |entry| >= 2 then
      JoinFirstTwo(entry, '=');
      assert '=' in item by {
        var n := |entry[0]|;
        assert item[..n + 1 + |entry[1]|][n] == '=';
      }
      Found(entry[1])
    else Undefined
  }

  /** Some item has this key. */
  ghost predicate HasKey(items: seq<string>, key: string) {
    exists i :: 0 <= i < |items| && EntryKey(items[i]) == key
  }

  /** The item at `i` is the last one with this key. */
  ghost predicate LastWithKey(items: seq<string>, key: string, i: int) {
    && 0 <= i < |items|
    && EntryKey(items[i]) == key
    && forall j :: i < j < |items| ==> EntryKey(items[j]) != key
  }

  /** Storing one more item: its key joins the keys already present. */
  lemma ExtendKeys(items: seq<string>, before: map<string, Lookup>)
    requires |items| > 0
    requires forall key :: key in before <==> HasKey(items[..|items| - 1], key)
    ensures var last := items[|items| - 1];
      forall key :: key in before[EntryKey(last) := EntryValue(last)] <==> HasKey(items, key)
  {
    var n := |items| - 1;
    var prefix := items[..n];
    var m := before[EntryKey(items[n]) := EntryValue(items[n])];
    forall key ensures key in m <==> HasKey(items, key) {
      if HasKey(prefix, key) {
        var i :| 0 <= i < |prefix| && EntryKey(prefix[i]) == key;
        assert items[i] == prefix[i];
      }
      if HasKey(items, key) && key != EntryKey(items[n]) {
        var i :| 0 <= i < |items| && EntryKey(items[i]) == key;
        assert prefix[i] == items[i];
      }
    }
  }

  /** Storing one more item: it overrides its key, and every other key keeps its last item. */
  lemma ExtendLast(prefix: seq<string>, last: string, before: map<string, Lookup>)
    requires forall key, i :: LastWithKey(prefix, key, i) ==> key in before && before[key] == EntryValue(prefix[i])
    ensures var m := before[EntryKey(last) := EntryValue(last)];
      forall key, i :: LastWithKey(prefix + [last], key, i) ==> key in m && m[key] == EntryValue((prefix + [last])[i])
  {
    var items := prefix + [last];
    var m := before[EntryKey(last) := EntryValue(last)];
    forall key, i | LastWithKey(items, key, i) ensures key in m && m[key] == EntryValue(items[i]) {
      if i < |prefix| {
        assert LastWithKey(prefix, key, i) by {
          assert items[i] == prefix[i];
          forall j | i < j < |prefix| ensures EntryKey(prefix[j]) != key {
            assert items[j] == prefix[j];
          }
        }
        assert items[i] == prefix[i];
        assert EntryKey(last) == EntryKey(items[|prefix|]) != key;
      } else {
        assert items[i] == last;
      }
    }
  }

  /**
   * `paramMap` after the `forEach`: a key is present exactly when some item
   * has it, and maps to the value of the last such item.
   */
  function ParamMap(items: seq<string>): (m: map<string, Lookup>)
    ensures forall key :: key in m <==> HasKey(items, key)
    ensures forall key, i :: LastWithKey(items, key, i) ==> key in m && m[key] == EntryValue(items[i])
    decreases |items|
  {
    if |items| == 0 then map[]
    else
      var n := |items| - 1;
      var before := ParamMap(items[..n]);
      ExtendKeys(items, before);
      assert items == items[..n] + [items[n]];
      ExtendLast(items[..n], items[n], before);
      before[EntryKey(items[n]) := EntryValue(items[n])]
  }

  /** The last item with the key, given that item `i` has it. */
  function LastIndexWithKey(items: seq<string>, key: string, i: nat): (k: nat)
    requires i < |items| && EntryKey(items[i]) == key
    ensures i <= k && LastWithKey(items, key, k)
    decreases |items| - i
  {
    if exists j :: i < j < |items| && EntryKey(items[j]) == key then
      var j :| i < j < |items| && EntryKey(items[j]) == key;
      LastIndexWithKey(items, key, j)
    else i
  }

  /**
   * `getParamByName(key)` with `location.search` given as `search`. Shorter
   * than two characters gives `null`. Otherwise the first character, whatever
   * it is, is ignored; a key no item has gives `undefined`; and a key some
   * item has gives that of the last such item, undecoded.
   */
  function GetParamByName(search: string, key: string): (r: Lookup)
    ensures r == Null <==> |search| < 2
    ensures |search| >= 2 && !HasKey(Split(search[1..], '&'), key) ==> r == Undefined
    ensures |search| >= 2 ==> forall i :: LastWithKey(Split(search[1..], '&'), key, i) ==> r == EntryValue(Split(search[1..], '&')[i])
    ensures r.Found? ==> '&' !in r.value && '=' !in r.value && forall c :: c in r.value ==> c in search
  {
    if |search| < 2 then Null
    else
      var items := Split(search[1..], '&');
      var m := ParamMap(items);
      if key in m then
        var i :| 0 <= i < |items| && EntryKey(items[i]) == key;
        var k := LastIndexWithKey(items, key, i);
        var r := m[key];
        assert r == EntryValue(items[k]);
        assert r.Found? ==> forall c :: c in r.value ==> c in search by {
          if r.Found? {
            forall c | c in r.value ensures c in search {
              assert c in items[k];
              assert c in search[1..];
            }
          }
        }
        r
      else Undefined
  }

  /** The first character is dropped whatever it is, not only when it is `?`. */
  lemma FirstCharacterIgnored(c: char, d: char, rest: string, key: string)
    requires |rest| >= 1
    ensures GetParamByName([c] + rest, key) == GetParamByName([d] + rest, key)
  {
    assert ([c] + rest)[1..] == rest == ([d] + rest)[1..];
  }

  /** One step of `Split` on a first character that is not the separator. */
  lemma SplitCons(c: char, rest: string, sep: char)
    requires c != sep
    ensures Split([c] + rest, sep) == [[c] + Split(rest, sep)[0]] + Split(rest, sep)[1..]
  {
    assert ([c] + rest)[1..] == rest;
  }

  /** The key and value of `q=a%20b`. */
  lemma EntryOfEscapedItem()
    ensures EntryKey("q=a%20b") == "q" && EntryValue("q=a%20b") == Found("a%20b")
  {
    assert Split("a%20b", '=') == ["a%20b"];
    assert Split("=a%20b", '=') == ["", "a%20b"];
    SplitCons('q', "=a%20b", '=');
    assert ['q'] + "=a%20b" == "q=a%20b";
    assert ['q'] + "" == "q";
  }

  /** Values are returned as they appear, percent escapes included. */
  lemma NoPercentDecoding()
    ensures GetParamByName("?q=a%20b", "q") == Found("a%20b")
  {
    EntryOfEscapedItem();
    assert "?q=a%20b"[1..] == "q=a%20b";
    assert Split("q=a%20b", '&') == ["q=a%20b"];
    assert LastWithKey(["q=a%20b"], "q", 0);
  }

  /** The items of `a=1&a=2`. */
  lemma SplitRepeated()
    ensures Split("a=1&a=2", '&') == ["a=1", "a=2"]
  {
    assert Split("a=2", '&') == ["a=2"];
    assert Split("&a=2", '&') == ["", "a=2"];
    assert "1&a=2"[1..] == "&a=2";
    assert ['1'] + "" == "1";
    assert Split("1&a=2", '&') == ["1", "a=2"];
    SplitCons('=', "1&a=2", '&');
    assert ['='] + "1&a=2" == "=1&a=2";
    assert ['='] + "1" == "=1";
    assert Split("=1&a=2", '&') == ["=1", "a=2"];
    SplitCons('a', "=1&a=2", '&');
    assert ['a'] + "=1&a=2" == "a=1&a=2";
    assert ['a'] + "=1" == "a=1";
  }

  /** The key and value of `a=2`. */
  lemma EntryOfSecondItem()
    ensures EntryKey("a=2") == "a" && EntryValue("a=2") == Found("2")
  {
    assert Split("2", '=') == ["2"];
    assert Split("=2", '=') == ["", "2"];
    SplitCons('a', "=2", '=');
    assert ['a'] + "=2" == "a=2";
    assert ['a'] + "" == "a";
  }

  /** A repeated key takes its last value. */
  lemma RepeatedKeyLastWins()
    ensures GetParamByName("?a=1&a=2", "a") == Found("2")
  {
    SplitRepeated();
    EntryOfSecondItem();
    assert "?a=1&a=2"[1..] == "a=1&a=2";
    assert LastWithKey(["a=1", "a=2"], "a", 1);
  }

  /** A later item without `=` overrides an earlier value with `undefined`. */
  lemma LaterBareItemWins()
    ensures GetParamByName("?x=1&x", "x") == Undefined
  {
    assert "?x=1&x"[1..] == "x=1&x";
    assert Split("x", '&') == ["x"];
    assert Split("&x", '&') == ["", "x"];
    SplitCons('1', "&x", '&');
    assert ['1'] + "&x" == "1&x" && ['1'] + "" == "1";
    SplitCons('=', "1&x", '&');
    assert ['='] + "1&x" == "=1&x" && ['='] + "1" == "=1";
    SplitCons('x', "=1&x", '&');
    assert ['x'] + "=1&x" == "x=1&x" && ['x'] + "=1" == "x=1";
    assert Split("x=1&x", '&') == ["x=1", "x"];
    assert Split("x", '=') == ["x"];
    assert EntryKey("x") == "x";
    assert LastWithKey(["x=1", "x"], "x", 1);
  }

  /** An item without `=` has the value `undefined`. */
  lemma ItemWithoutEqualsIsUndefined()
    ensures GetParamByName("?x&y=1", "x") == Undefined
  {
    assert Split("x", '=') == ["x"];
    assert Split("x&y=1", '&') == ["x", "y=1"] by {
      assert Split("y=1", '&') == ["y=1"];
      assert Split("&y=1", '&') == ["", "y=1"];
    }
    assert EntryKey("x") == "x";
    assert LastWithKey(["x", "y=1"], "x", 0) by {
      assert Split("y=1", '=') == ["y", "1"] by {
        assert Split("1", '=') == ["1"];
        assert Split("=1", '=') == ["", "1"];
        SplitCons('y', "=1", '=');
        assert ['y'] + "=1" == "y=1";
        assert ['y'] + "" == "y";
      }
    }
  }
}

=== FILE: rtc_channel.dfy ===
/**
 * The protocol clients of hf-demo/rtc-channel.js, built on the iframe RPC
 * model: fixed envelopes for muting, the `config` / `startup` handshake, and
 * the error serialisation used in `startup`. The builders take the channel
 * name so that the `artc` client of hf-demo/agora/channel.js reuses them.
 */
module RtcChannel {
  import opened Wrappers
  import opened Values
  import opened IframeRpc

  /** The channel both page and frame use. */
  const CHANNEL_NAME: string := "webrtc"

  /**
   * The functions these clients hand to the RPC layer: an application
   * function, or the wrapper `getRtcService` passes as the `config` callback,
   * which calls the application's function with a continuation.
   */
  datatype ClientFn = AppFn(id: nat) | ConfigThen(app: nat)

  /** `serializeError`: `''` for a falsy error, else exactly its `message`, `stack` and `error`. */
  function SerializeError(error: Value): (r: Value)
    ensures !Truthy(error) <==> r == Str("")
    ensures Truthy(error) ==>
      && r.Obj?
      && r.fields.Keys == {"message", "stack", "error"}
      && forall k :: k in r.fields ==> r.fields[k] == Field(error, k)
  {
    if Truthy(error)
    then Obj(map["message" := Field(error, "message"), "stack" := Field(error, "stack"), "error" := Field(error, "error")])
    else Str("")
  }

  /** The payload of a `mute` call. */
  function MutePayload(mute: bool): Value {
    Obj(map["mute" := Bool(mute)])
  }

  /** `new RtcChannelParent()` and `new RtcChannelChild()`: a fresh RPC object with `webrtc`, origin `*`, no target. */
  function NewRtcChannel(): (r: Rpc<ClientFn>)
    ensures Valid(r)
    ensures r.channels == map[CHANNEL_NAME := Channel(CHANNEL_NAME, Some("*"), None)]
    ensures r.callbacks == map[] && r.callbackId == 0
    ensures forall action :: HandlerFor(r, CHANNEL_NAME, action).None?
  {
    NewChannel(None, CHANNEL_NAME, Some("*"), None)
  }

  /** The `mute` call: `{mute: true}` or `{mute: false}`, with no callback. */
  function MuteCall(st: Rpc<ClientFn>, channelName: string, mute: bool): (r: CallOutcome<ClientFn>)
    ensures r.st == st
    ensures r.Sent? <==> channelName in st.channels && st.channels[channelName].target.Some?
    ensures r.Sent? ==> r.post.envelope == Envelope(channelName, "mute", MutePayload(mute), None)
  {
    ChannelCall(st, channelName, "mute", MutePayload(mute), NoCallback)
  }

  /** `RtcChannelParent.mute`. */
  function Mute(st: Rpc<ClientFn>): (r: CallOutcome<ClientFn>)
    ensures r.st == st
    ensures r.Sent? <==> CHANNEL_NAME in st.channels && st.channels[CHANNEL_NAME].target.Some?
    ensures r.Sent? ==> r.post.envelope == Envelope("webrtc", "mute", Obj(map["mute" := Bool(true)]), None)
  {
    MuteCall(st, CHANNEL_NAME, true)
  }

  /** `RtcChannelParent.unmute`. */
  function Unmute(st: Rpc<ClientFn>): (r: CallOutcome<ClientFn>)
    ensures r.st == st
    ensures r.Sent? <==> CHANNEL_NAME in st.channels && st.channels[CHANNEL_NAME].target.Some?
    ensures r.Sent? ==> r.post.envelope == Envelope("webrtc", "mute", Obj(map["mute" := Bool(false)]), None)
  {
    MuteCall(st, CHANNEL_NAME, false)
  }

  /** The `userJoined` call: no data and no callback. */
  function UserJoinedCall(st: Rpc<ClientFn>, channelName: string): (r: CallOutcome<ClientFn>)
    ensures r.st == st
    ensures r.Sent? <==> channelName in st.channels && st.channels[channelName].target.Some?
    ensures r.Sent? ==> r.post.envelope == Envelope(channelName, "userJoined", Undefined, None)
  {
    ChannelCall(st, channelName, "userJoined", Undefined, NoCallback)
  }

  /** `RtcChannelChild.userJoined`. */
  function UserJoined(st: Rpc<ClientFn>): (r: CallOutcome<ClientFn>)
    ensures r.st == st
    ensures r.Sent? <==> CHANNEL_NAME in st.channels && st.channels[CHANNEL_NAME].target.Some?
    ensures r.Sent? ==> r.post.envelope == Envelope("webrtc", "userJoined", Undefined, None)
  {
    UserJoinedCall(st, CHANNEL_NAME)
  }

  /**
   * The first step of `getRtcService(type, callback)`: a `config` call whose
   * data is the service type and whose callback is a fresh one-shot wrapper
   * around the application's function.
   */
  function ConfigCall(st: Rpc<ClientFn>, channelName: string, serviceType: Value, app: nat): (r: CallOutcome<ClientFn>)
    ensures channelName in st.channels ==>
      && r.st.callbackId == st.callbackId + 1
      && r.st.callbacks == st.callbacks[r.st.callbackId := Pending(ConfigThen(app), false)]
    ensures r.Sent? <==> channelName in st.channels && st.channels[channelName].target.Some?
    ensures r.Sent? ==> r.post.envelope == Envelope(channelName, "config", serviceType, Some(IdNum(r.st.callbackId)))
  {
    ChannelCall(st, channelName, "config", serviceType, Function(ConfigThen(app)))
  }

  /** `RtcChannelChild.getRtcService`. */
  function GetRtcService(st: Rpc<ClientFn>, serviceType: Value, app: nat): (r: CallOutcome<ClientFn>)
    ensures CHANNEL_NAME in st.channels ==>
      && r.st.callbackId == st.callbackId + 1
      && r.st.callbacks == st.callbacks[r.st.callbackId := Pending(ConfigThen(app), false)]
    ensures r.Sent? <==> CHANNEL_NAME in st.channels && st.channels[CHANNEL_NAME].target.Some?
    ensures r.Sent? ==> r.post.envelope == Envelope("webrtc", "config", serviceType, Some(IdNum(r.st.callbackId)))
  {
    ConfigCall(st, CHANNEL_NAME, serviceType, app)
  }

  /**
   * The continuation the application receives with its configuration:
   * `cont(error, data)` sends `startup` with the serialised error and the
   * data, with no callback.
   */
  function StartupCall(st: Rpc<ClientFn>, channelName: string, error: Value, data: Value): (r: CallOutcome<ClientFn>)
    ensures r.st == st
    ensures r.Sent? <==> channelName in st.channels && st.channels[channelName].target.Some?
    ensures r.Sent? ==>
      r.post.envelope == Envelope(channelName, "startup", Obj(map["error" := SerializeError(error), "data" := data]), None)
  {
    ChannelCall(st, channelName, "startup", Obj(map["error" := SerializeError(error), "data" := data]), NoCallback)
  }

  /** The continuation of `RtcChannelChild.getRtcService`. */
  function Startup(st: Rpc<ClientFn>, error: Value, data: Value): (r: CallOutcome<ClientFn>)
    ensures r.st == st
    ensures r.Sent? ==> r.post.envelope.action == "startup" && r.post.envelope.callback == None
    ensures r.Sent? && !Truthy(error) ==> Field(r.post.envelope.data, "error") == Str("")
  {
    StartupCall(st, CHANNEL_NAME, error, data)
  }
}

=== FILE: rtc_handshake.dfy ===
/**
 * End-to-end properties of the `webrtc` and `artc` clients over the RPC
 * model: nothing is posted before a target window is set, and the
 * `config` / `startup` handshake between frame and page.
 */
module RtcHandshake {
  import opened Wrappers
  import opened Values
  import opened IframeRpc
  import opened RtcChannel
  import opened AgoraChannel
  import IframeRpcProperties

  /**
   * Both `webrtc` constructors leave the target unset, so every method throws
   * until `setTarget`; `getRtcService` has already stored its callback when
   * it throws.
   */
  lemma NothingPostedWithoutTarget(serviceType: Value, app: nat, error: Value, data: Value)
    ensures Mute(NewRtcChannel()) == Threw(NoWindow, NewRtcChannel())
    ensures Unmute(NewRtcChannel()) == Threw(NoWindow, NewRtcChannel())
    ensures UserJoined(NewRtcChannel()) == Threw(NoWindow, NewRtcChannel())
    ensures Startup(NewRtcChannel(), error, data) == Threw(NoWindow, NewRtcChannel())
    ensures var r := GetRtcService(NewRtcChannel(), serviceType, app);
      r.Threw? && r.error == NoWindow && r.st.callbacks == map[1 := Pending(ConfigThen(app), false)]
  {
  }

  /** Once the page's channel has a target, `mute` posts `{mute: true}` to it with origin `*`. */
  lemma MuteAfterSetTarget(w: WindowRef)
    ensures var st := SetTarget(NewRtcChannel(), CHANNEL_NAME, w);
      Mute(st) == Sent(st, Post(w, Some("*"), Envelope("webrtc", "mute", Obj(map["mute" := Bool(true)]), None)))
  {
  }

  /** The page-side `artc` object has no `getRtcService`; the frame-side one has no `mute`. */
  lemma AgoraMethodSets(st: Rpc<ClientFn>, serviceType: Value, app: nat)
    ensures Invoke(false, st, GetRtcServiceMethod(serviceType, app)) == NotAFunction
    ensures Invoke(true, st, MuteMethod) == NotAFunction
    ensures Invoke(true, st, UnmuteMethod) == NotAFunction
    ensures Invoke(false, st, UserJoinedMethod) == NotAFunction
  {
  }

  /**
   * The handshake. The frame asks for its configuration; the page's `config`
   * handler replies `(err, config)`; the frame's wrapper receives exactly
   * that and is dropped; the continuation then posts `startup` with the
   * serialised error and the data, without a callback.
   */
  lemma ConfigStartupHandshake(frame: Rpc<ClientFn>, page: Rpc<ClientFn>, serviceType: Value, app: nat,
                               configHandler: ClientFn, err: Value, config: Value, error: Value, data: Value)
    requires Valid(frame)
    requires CHANNEL_NAME in frame.channels && frame.channels[CHANNEL_NAME].target.Some?
    requires CHANNEL_NAME in page.channels && page.channels[CHANNEL_NAME].target.Some?
    requires HandlerFor(page, CHANNEL_NAME, "config") == Some(configHandler)
    ensures var ask := GetRtcService(frame, serviceType, app);
      && ask.Sent?
      && ask.post.envelope == Envelope("webrtc", "config", serviceType, Some(IdNum(frame.callbackId + 1)))
      && var handled := Recv(page, Deliver(ask.post.envelope));
        && handled.events == [ActionInvoked(configHandler, serviceType, ReplyTo("webrtc", Some(IdNum(frame.callbackId + 1))))]
        && var answer := Reply(page, handled.events[0].reply, err, config);
          && answer.Some? && answer.value.Sent?
          && var resolved := Recv(ask.st, Deliver(answer.value.post.envelope));
            && resolved.Received?
            && resolved.events == [CallbackInvoked(ConfigThen(app), err, config)]
            && resolved.st.callbacks == frame.callbacks
            && var start := Startup(resolved.st, error, data);
              && start.Sent?
              && start.post.envelope == Envelope("webrtc", "startup", Obj(map["error" := SerializeError(error), "data" := data]), None)
  {
    IframeRpcProperties.CallReplyRoundTrip(frame, page, CHANNEL_NAME, "config", serviceType, ConfigThen(app), false,
                                           configHandler, err, config);
  }
}

=== FILE: tag_strip.dfy ===
/**
 * The tag stripping the signaling relay applies to chat text: a global,
 * case-insensitive replace of `<`, one or more characters other than `>`,
 * then `>`, by the empty string. Scanning left to right, a `<` starts a
 * match exactly when the first `>` after it is at least two positions
 * further on; a match resumes the scan after its `>`, and a `<` that starts
 * no match is kept.
 */
module TagStrip {

  /** The first position at or after `from` holding `>`, or `|s|` when there is none. */
  function FindClose(s: string, from: nat): (k: nat)
    requires from <= |s|
    ensures from <= k <= |s|
    ensures k < |s| ==> s[k] == '>'
    ensures forall m :: from <= m < k ==> s[m] != '>'
    decreases |s| - from
  {
    if from == |s| || s[from] == '>' then from else FindClose(s, from + 1)
  }

  /** `s[i..j+1]` matches `<[^>]+>`. */
  predicate TagAt(s: string, i: nat, j: nat) {
    && i + 1 < j < |s|
    && s[i] == '<'
    && s[j] == '>'
    && forall k :: i < k < j ==> s[k] != '>'
  }

  /** Some part of `s` matches `<[^>]+>`. */
  ghost predicate ContainsTag(s: string) {
    exists i: nat, j: nat :: TagAt(s, i, j)
  }

  /** `text.replace(/(<([^>]+)>)/ig, '')`. */
  function StripTags(s: string): (r: string)
    ensures |r| <= |s|
    ensures forall c :: c in r ==> c in s
    ensures '<' !in s ==> r == s
    decreases |s|
  {
    if |s| == 0 then ""
    else if s[0] == '<' && 2 <= FindClose(s, 1) < |s| then StripTags(s[FindClose(s, 1) + 1..])
    else [s[0]] + StripTags(s[1..])
  }

  /** A tag at the head of `s` is exactly what the first branch of `StripTags` removes. */
  lemma HeadTag(s: string, j: nat)
    requires TagAt(s, 0, j)
    ensures FindClose(s, 1) == j
  {
  }

  /**
   * Prefixing one character creates no tag, unless it is a `<` whose first
   * following `>` comes two or more positions later.
   */
  lemma ConsLeavesNoTag(c: char, t: string)
    requires !ContainsTag(t)
    requires c == '<' ==> (|t| >= 1 && t[0] == '>') || '>' !in t
    ensures !ContainsTag([c] + t)
  {
    var r := [c] + t;
    forall i: nat, j: nat | i + 1 < j < |r|
      ensures !TagAt(r, i, j)
    {
      if i >= 1 {
        if TagAt(r, i, j) {
          forall k | i - 1 < k < j - 1
            ensures t[k] != '>'
          {
            assert t[k] == r[k + 1];
          }
          assert TagAt(t, i - 1, j - 1);
        }
      } else if '>' !in t {
        assert r[j] == t[j - 1];
      } else {
        assert r[1] == t[0];
      }
    }
  }

  /** Nothing that matches the pattern survives stripping. */
  lemma {:induction false} StripTagsLeavesNoTag(s: string)
    ensures !ContainsTag(StripTags(s))
    decreases |s|
  {
    if |s| == 0 {
    } else if s[0] == '<' && 2 <= FindClose(s, 1) < |s| {
      StripTagsLeavesNoTag(s[FindClose(s, 1) + 1..]);
    } else {
      var t := StripTags(s[1..]);
      StripTagsLeavesNoTag(s[1..]);
      if s[0] == '<' {
        if FindClose(s, 1) < |s| {
          assert s[1..][0] == '>';
          assert t == [s[1]] + StripTags(s[2..]) by {
            assert s[1..][1..] == s[2..];
          }
        } else {
          assert '>' !in s[1..];
        }
      }
      ConsLeavesNoTag(s[0], t);
    }
  }

  /** Stripping changes the text exactly when it contains a tag. */
  lemma {:induction false} StripTagsUnchangedIff(s: string)
    ensures StripTags(s) == s <==> !ContainsTag(s)
    decreases |s|
  {
    StripTagsLeavesNoTag(s);
    if |s| > 0 && !ContainsTag(s) {
      if s[0] == '<' && 2 <= FindClose(s, 1) < |s| {
        assert TagAt(s, 0, FindClose(s, 1));
      }
      assert !ContainsTag(s[1..]) by {
        forall i: nat, j: nat | TagAt(s[1..], i, j)
          ensures false
        {
          assert TagAt(s, i + 1, j + 1);
        }
      }
      StripTagsUnchangedIff(s[1..]);
    }
  }

  /** Stripping twice is stripping once. */
  lemma StripTagsIdempotent(s: string)
    ensures StripTags(StripTags(s)) == StripTags(s)
  {
    StripTagsLeavesNoTag(s);
    StripTagsUnchangedIff(StripTags(s));
  }

  /** Text before the first `<` is kept as it is, and the rest is stripped on its own. */
  lemma {:induction false} StripTagsKeepsPlainPrefix(u: string, v: string)
    requires '<' !in u
    ensures StripTags(u + v) == u + StripTags(v)
    decreases |u|
  {
    if |u| > 0 {
      var s := u + v;
      assert s[0] == u[0] && s[1..] == u[1..] + v;
      assert u[0] != '<' by { assert u[0] in u; }
      assert StripTags(s) == [u[0]] + StripTags(u[1..] + v);
      StripTagsKeepsPlainPrefix(u[1..], v);
      assert [u[0]] + (u[1..] + StripTags(v)) == u + StripTags(v) by {
        assert [u[0]] + u[1..] == u;
      }
    } else {
      assert u + v == v;
    }
  }

  /** A tag at the head is removed whole, and stripping resumes after its `>`. */
  lemma StripTagsDropsHeadTag(s: string, j: nat)
    requires TagAt(s, 0, j)
    ensures StripTags(s) == StripTags(s[j + 1..])
  {
    HeadTag(s, j);
  }

  /** A `<` that begins no tag is kept, and stripping resumes right after it. */
  lemma StripTagsKeepsUnmatchedOpen(s: string)
    requires |s| > 0 && s[0] == '<'
    requires forall j: nat :: !TagAt(s, 0, j)
    ensures StripTags(s) == "<" + StripTags(s[1..])
  {
    var k := FindClose(s, 1);
    if 2 <= k < |s| {
      assert TagAt(s, 0, k);
    }
  }

  /** A markup example: the tags go, the text between them stays, and an empty `<>` is kept. */
  lemma StripTagsExample()
    ensures StripTags("<b>hi</b>") == "hi"
    ensures StripTags("<>") == "<>"
  {
    assert FindClose("<b>hi</b>", 1) == 2;
    assert "<b>hi</b>"[3..] == "hi</b>";
    assert StripTags("</b>") == "" by {
      assert FindClose("</b>", 1) == 3;
      assert "</b>"[4..] == "";
    }
    assert StripTags("i</b>") == "i" by {
      assert "i</b>"[1..] == "</b>";
    }
    assert StripTags("hi</b>") == "hi" by {
      assert "hi</b>"[1..] == "i</b>";
    }
    assert FindClose("<>", 1) == 1;
    assert StripTags(">") == ">" by {
      assert ">"[1..] == "";
    }
    assert "<>"[1..] == ">";
  }
}

=== FILE: values.dfy ===
/**
 * The JavaScript values that travel in message payloads, restricted to what
 * the protocol inspects: truthiness and reading a named property.
 */
module Values {

  /** A structured-cloneable value. Numbers are integers; objects map property names to values. */
  datatype Value =
    | Undefined
    | Null
    | Bool(b: bool)
    | Num(n: int)
    | Str(s: string)
    | Arr(items: seq<Value>)
    | Obj(fields: map<string, Value>)

  /** JavaScript truthiness: `undefined`, `null`, `false`, `0` and `""` are falsy; every object is truthy. */
  predicate Truthy(v: Value) {
    match v
    case Undefined => false
    case Null => false
    case Bool(b) => b
    case Num(n) => n != 0
    case Str(s) => s != ""
    case Arr(_) => true
    case Obj(_) => true
  }

  /**
   * `v.key` for the property names this model reads. Only objects carry own
   * properties here; reading a missing property yields `undefined`.
   */
  function Field(v: Value, key: string): Value {
    if v.Obj? && key in v.fields then v.fields[key] else Undefined
  }
}

=== FILE: wrappers.dfy ===
/** Optional value used throughout the model. */
module Wrappers {

  /** A value that may be absent; `None` stands for JavaScript's `undefined`. */
  datatype Option<+T> = None | Some(value: T) {

    /** The carried value, or `default` when there is none. */
    function GetOr(default: T): T {
      match this
      case Some(v) => v
      case None => default
    }
  }
}
